=== FILE: README.md ===
# BigQuery tools of the data-science agent, modelled in Dafny

This project models the deterministic core of the BigQuery sub-agent's tool
module (`python/agents/data-science/data_science/sub_agents/bigquery/tools.py`):

- **The SQL literal serializer** (`_serialize_value_for_sql`). It turns the
  values of a sample row into BigQuery literals: `NULL`, quoted text and bytes
  with backslashes and quotes doubled, quoted dates, datetimes and
  timestamps, bracketed arrays, parenthesised structs and bare scalars. A
  `datetime.time` (a TIME column) is not among the quoted types, so it is
  written bare, like any other scalar.
- **The DDL document built by `get_bigquery_schema`.** It has one block per
  listed view, native table (with its sample `INSERT` statements, or a note
  when the sample fetch failed) and Iceberg external table. Other kinds of
  table are skipped.
- **The fence stripping of `initial_bq_nl2sql`.** It removes Markdown code
  fences from the generated SQL.
- **`run_bigquery_validation`**, in four parts:
  - `cleanup_sql`: four unescaping passes, then a row limit;
  - the read-only gate, a case-insensitive whole-word search for eight
    DML/DDL keywords;
  - the execution outcome, with the query engine as a parameter;
  - the shaping of result rows: dates rendered as `YYYY-MM-DD` and at most
    `MAX_NUM_ROWS` rows.

Modules, one file each:

| Module | What it models |
|---|---|
| `Wrappers` | Option |
| `Strings` | Python's `str.replace`, `lower`, `join` and `strip`, and a substring test |
| `Escaping` | Quote doubling and its inverse reading |
| `Serializer` | The value classification and the literal serializer |
| `LiteralParser` | A reader for the serializer's output, its partner |
| `Schema` | The DDL builder |
| `Gate` | The keyword regular expression |
| `Cleanup` | `cleanup_sql` |
| `Decimal` | Zero-padded decimal digits and their value |
| `Dates` | `strftime("%Y-%m-%d")` and its reading back |
| `Validation` | The validation tool as a whole |
| `Fences` | The fence stripping |

Every operation has a partner, and a lemma relates the two:

- the serializer has a parser;
- quote doubling has undoubling;
- date formatting has date parsing;
- the loop that builds the DDL has the block-by-block `Document` definition;
- the left-to-right keyword search has the `Disallowed` predicate;
- each unescaping pass of `cleanup_sql` has a lemma saying what its escape
  becomes;
- fence stripping has a lemma saying what is kept around a fenced block.

Because quotes are doubled rather than backslash-escaped, the two replace
passes at `tools.py:48` commute (`Escaping.EscapeOrderIrrelevant`).

## Model

| member | source | states |
|---|---|---|
| Escaping.EscapeText | python/agents/data-science/data_science/sub_agents/bigquery/tools.py:48-50 | The body of a text or bytes literal: backslashes doubled, then single quotes doubled. It has no contract of its own; `EscapeTextDoubles` and `EscapeTextRoundTrip` state what it computes. |
| Escaping.QuoteDescription | python/agents/data-science/data_science/sub_agents/bigquery/tools.py:188 | The body of a column description: single quotes doubled. Its properties are in `QuoteDescriptionDoubles` and `QuoteDescriptionRoundTrip`. |
| Escaping.EscapeTextDoubles | python/agents/data-science/data_science/sub_agents/bigquery/tools.py:46-48 | Together, the two replace passes on a text value double every backslash and every single quote, and nothing else. |
| Escaping.EscapeOrderIrrelevant | python/agents/data-science/data_science/sub_agents/bigquery/tools.py:48 | Doubling quotes first and backslashes second gives the same body as the source's order. |
| Escaping.EscapeTextRoundTrip | python/agents/data-science/data_science/sub_agents/bigquery/tools.py:46-50 | Reading the escaped body of a text or bytes literal back, pair by pair, recovers the original text exactly. |
| Escaping.UndoubleDoubleEach | python/agents/data-science/data_science/sub_agents/bigquery/tools.py:46-50 | For any set of doubled characters, undoubling inverts doubling. |
| Escaping.DoubleEachUndouble | python/agents/data-science/data_science/sub_agents/bigquery/tools.py:46-50 | Conversely, every body that reads back is the doubling of what it reads as, so escaping loses nothing and adds no ambiguity. |
| Escaping.QuoteDescriptionDoubles | python/agents/data-science/data_science/sub_agents/bigquery/tools.py:188 | A column description has its single quotes doubled and nothing else. |
| Escaping.QuoteDescriptionRoundTrip | python/agents/data-science/data_science/sub_agents/bigquery/tools.py:184-189 | The quoted description reads back to the original description. |
| Serializer.Serialize | python/agents/data-science/data_science/sub_agents/bigquery/tools.py:42-61 | The literal of a value, one case per type test in the source's order. Its partner is the reader; `ParseLiteralSerialize` states the round trip. |
| LiteralParser.ParseLiteralSerialize | python/agents/data-science/data_science/sub_agents/bigquery/tools.py:42-61 | For every well-formed value, the literal reads back to the value's shape: `NULL`; a quoted string; a `b`-quoted byte string; a quoted date, datetime or timestamp; a bracketed list of element shapes; a parenthesised tuple of struct values in order; or the bare text of a scalar. |
| LiteralParser.ParseSerialized | python/agents/data-science/data_science/sub_agents/bigquery/tools.py:42-61 | For a well-formed value, its literal followed by a separator or closer reads back to the value's shape, leaving what follows untouched. |
| LiteralParser.ParseSerializedList | python/agents/data-science/data_science/sub_agents/bigquery/tools.py:54-60 | When every element is well-formed, a `", "`-joined list of literals and its closing bracket or parenthesis reads back to the element shapes in order. This includes the empty list. |
| LiteralParser.SerializeDistinguishesShapes | python/agents/data-science/data_science/sub_agents/bigquery/tools.py:42-61 | Well-formed values of different shapes never have the same literal. |
| Schema.KindOf | python/agents/data-science/data_science/sub_agents/bigquery/tools.py:141-221 | The dispatch on `table_type`. The result is View, External or Table exactly for the strings `VIEW`, `EXTERNAL` and `TABLE`; any other string is another kind. |
| Schema.Block | python/agents/data-science/data_science/sub_agents/bigquery/tools.py:141-221 | The DDL one listed table contributes: a view, Iceberg or native-table block, or nothing. `BlockShape` states its shape. |
| Schema.BuildSchemaDocument | python/agents/data-science/data_science/sub_agents/bigquery/tools.py:137-221 | The loop that appends each listed table's DDL computes the concatenation, in listing order, of every table's block. |
| Schema.DocumentCons | python/agents/data-science/data_science/sub_agents/bigquery/tools.py:137-221 | The document is the first listed table's block followed by the document of the rest. |
| Schema.BlockShape | python/agents/data-science/data_science/sub_agents/bigquery/tools.py:141-221 | A table contributes text exactly when it is a view, a native table or an Iceberg external table. A view's block opens with `CREATE OR REPLACE VIEW`, a native table's with `CREATE OR REPLACE TABLE` and an Iceberg table's with `CREATE EXTERNAL TABLE`, each followed by the back-quoted table name. |
| Schema.DocumentOfEmitting | python/agents/data-science/data_science/sub_agents/bigquery/tools.py:175-221 | Skipped tables (other external formats, materialized views, snapshots and the like) can be dropped from the listing without changing the document. |
| Schema.DocumentEmptyIff | python/agents/data-science/data_science/sub_agents/bigquery/tools.py:137-221 | The document is empty exactly when no listed table contributes a block. |
| Schema.RepeatedColumnType | python/agents/data-science/data_science/sub_agents/bigquery/tools.py:161-163 | A column's type is written `ARRAY<T>` exactly when its mode is REPEATED, and as its plain type otherwise. |
| Schema.DescribedColumn | python/agents/data-science/data_science/sub_agents/bigquery/tools.py:183-189 | A native table's column gets an `OPTIONS(description='…')` suffix only when its description is non-empty. The quoted text reads back to the description. |
| Schema.TableColumnsListed | python/agents/data-science/data_science/sub_agents/bigquery/tools.py:178-195 | A native table's block contains the definition of every schema field. |
| Schema.IcebergBlockContents | python/agents/data-science/data_science/sub_agents/bigquery/tools.py:153-174 | An Iceberg table's block contains every field's definition, the `WITH CONNECTION` clause for its connection and every source URI in quotes. |
| Schema.SampleOutcome | python/agents/data-science/data_science/sub_agents/bigquery/tools.py:199-216 | A failed sample fetch adds only the note. An empty sample adds nothing. k rows add the example header and exactly k `INSERT INTO` statements, whose value lists read back, for well-formed values, to the rows' values in column order. |
| Schema.FailedFetchHasNoInsert | python/agents/data-science/data_science/sub_agents/bigquery/tools.py:212-216 | After a failed sample fetch, every added statement is a SQL comment and none is an `INSERT`. |
| Schema.RepeatedColumnFetchFailedExample | python/agents/data-science/data_science/sub_agents/bigquery/tools.py:178-216 | A native table with one repeated INT64 column and a failed sample fetch gives its `CREATE` statement with an `ARRAY<INT64>` column, followed by the note alone. |
| Gate.Disallowed | python/agents/data-science/data_science/sub_agents/bigquery/tools.py:356-358 | `re.search` finds a match: some keyword, in any letter case, with a word boundary on each side. `Search` is proved to decide it. |
| Gate.Search | python/agents/data-science/data_science/sub_agents/bigquery/tools.py:355-358 | The search finds nothing exactly when no keyword occurs as a whole word in any letter case. What it finds is a match, and no match starts further left. |
| Gate.DisallowedLower | python/agents/data-science/data_science/sub_agents/bigquery/tools.py:357 | The gate's verdict does not depend on letter case, in both directions. |
| Gate.KeywordAsWord | python/agents/data-science/data_science/sub_agents/bigquery/tools.py:357 | Any of the eight keywords, in any letter case, with no word character on either side, is refused. |
| Gate.KeywordInsideWord | python/agents/data-science/data_science/sub_agents/bigquery/tools.py:357 | A keyword run into word characters on its left, as in `last_update`, is not a match at that position. |
| Gate.DisallowedExtends | python/agents/data-science/data_science/sub_agents/bigquery/tools.py:343-358 | Appending text that starts with a non-word character, such as the limit clause, keeps every match. |
| Gate.DropTableRejected | python/agents/data-science/data_science/sub_agents/bigquery/tools.py:355-358 | `DROP TABLE x` is refused. |
| Cleanup.Unescape | python/agents/data-science/data_science/sub_agents/bigquery/tools.py:331-341 | The four replace passes in source order. Its properties are in `UnescapeWithoutBackslash`, one lemma per escape (`EscapedQuoteBecomesQuote`, `EscapedLineBreakBecomesLineBreak`, `EscapedApostropheBecomesApostrophe`, `EscapedNewlineBecomesNewline`), `UnescapeKeepsLimit` and `CleanupLength`. |
| Cleanup.LimitClauseNamesMaxNumRows | python/agents/data-science/data_science/sub_agents/bigquery/tools.py:345 | The appended clause is ` limit ` followed by the two decimal digits of `MAX_NUM_ROWS`, which read back to 80. |
| Cleanup.CleanupSql | python/agents/data-science/data_science/sub_agents/bigquery/tools.py:328-347 | The cleaned query always mentions "limit" in some letter case. It is the unescaped text, possibly followed by ` limit 80`. |
| Cleanup.CleanupAppendsLimitIff | python/agents/data-science/data_science/sub_agents/bigquery/tools.py:343-345 | The limit clause is appended exactly when the lower-cased unescaped text does not contain "limit", and the text is kept unchanged exactly when it does. |
| Cleanup.CleanupLength | python/agents/data-science/data_science/sub_agents/bigquery/tools.py:331-345 | No unescaping pass lengthens the text, so cleanup adds at most the nine characters of the clause. |
| Cleanup.UnescapeWithoutBackslash | python/agents/data-science/data_science/sub_agents/bigquery/tools.py:331-341 | A text without a backslash passes the four unescaping passes unchanged. |
| Cleanup.EscapedQuoteBecomesQuote | python/agents/data-science/data_science/sub_agents/bigquery/tools.py:332 | When the only backslash in a text is an escaped double quote, the pair becomes a bare double quote and nothing else changes. |
| Cleanup.EscapedLineBreakBecomesLineBreak | python/agents/data-science/data_science/sub_agents/bigquery/tools.py:335 | When the only backslash in a text stands before a line break, the backslash is dropped and nothing else changes. |
| Cleanup.EscapedApostropheBecomesApostrophe | python/agents/data-science/data_science/sub_agents/bigquery/tools.py:338 | When the only backslash in a text is an escaped single quote, the pair becomes a bare single quote and nothing else changes. |
| Cleanup.EscapedNewlineBecomesNewline | python/agents/data-science/data_science/sub_agents/bigquery/tools.py:341 | When the only backslash in a text is an escaped `\n`, that pair becomes a newline and nothing else changes. |
| Cleanup.DoubledBackslashExample | python/agents/data-science/data_science/sub_agents/bigquery/tools.py:340-341 | A backslash, another backslash and an `n` become a backslash and a newline. A backslash before `\n` is not protected, despite the source comment. |
| Cleanup.UnescapeKeepsLimit | python/agents/data-science/data_science/sub_agents/bigquery/tools.py:331-344 | Unescaping never breaks a "limit" in any letter case, because none of the four patterns shares a character with it. |
| Cleanup.MentionedLimitKept | python/agents/data-science/data_science/sub_agents/bigquery/tools.py:343-345 | A query that mentions "limit" in any letter case, even inside another word, gets no limit clause. |
| Cleanup.UnlimitedSuppressesLimit | python/agents/data-science/data_science/sub_agents/bigquery/tools.py:344 | The test is a substring test, so a query mentioning `unlimited` anywhere gets no row limit: its cleaned form is the unescaped text alone. |
| Cleanup.EscapedNewlineExposesKeyword | python/agents/data-science/data_science/sub_agents/bigquery/tools.py:331-358 | The gate sees the cleaned text. In `x\ndrop` the keyword is glued to a word, but after cleanup it stands alone and the query is refused. |
| Dates.FormatDate | python/agents/data-science/data_science/sub_agents/bigquery/tools.py:374 | `%Y-%m-%d`: ten characters with dashes at positions 4 and 7. `ParseFormatDate` and `FormatParseDate` state that it is invertible. |
| Dates.ParseFormatDate | python/agents/data-science/data_science/sub_agents/bigquery/tools.py:374 | The `%Y-%m-%d` rendering of every representable date reads back to the same date. |
| Dates.FormatParseDate | python/agents/data-science/data_science/sub_agents/bigquery/tools.py:374 | A text that reads as a date is exactly that date's rendering. |
| Dates.FormatDateInjective | python/agents/data-science/data_science/sub_agents/bigquery/tools.py:374 | Distinct dates render differently. |
| Dates.FormatDateExample | python/agents/data-science/data_science/sub_agents/bigquery/tools.py:374 | 5 January 2024 renders as `2024-01-05`. |
| Validation.Validate | python/agents/data-science/data_science/sub_agents/bigquery/tools.py:349-395 | The tool's outcome as a function of the query text and the engine. `RunValidation` computes it, and the lemmas below state its properties. |
| Validation.RenderValue | python/agents/data-science/data_science/sub_agents/bigquery/tools.py:371-375 | A date or datetime becomes text that reads back to its date. Any other value is returned unchanged. |
| Validation.RunValidation | python/agents/data-science/data_science/sub_agents/bigquery/tools.py:349-395 | The tool, run with the left-to-right search, returns the outcome the validation definition gives for every query and engine. |
| Validation.ExactlyOneChannel | python/agents/data-science/data_science/sub_agents/bigquery/tools.py:353-395 | Every path sets exactly one of `query_result` and `error_message`. |
| Validation.GateBlocksExecution | python/agents/data-science/data_science/sub_agents/bigquery/tools.py:355-362 | Nothing is sent to the engine exactly when the gate fires on the cleaned query, and then the result is the disallowed-operations message alone. |
| Validation.ExecutedQueryIsSafe | python/agents/data-science/data_science/sub_agents/bigquery/tools.py:350-365 | Any query sent to the engine is the cleaned query. It contains no keyword as a word and mentions "limit". |
| Validation.EngineMessages | python/agents/data-science/data_science/sub_agents/bigquery/tools.py:387-395 | An engine error is returned behind `Invalid SQL: `. A result with no schema gives the no-results message. |
| Validation.ReturnedRows | python/agents/data-science/data_science/sub_agents/bigquery/tools.py:368-383 | A result with a schema returns its first `min(n, 80)` rows, in order, with the same keys in the same order. Dates become text that reads back to them, and other values are unchanged. |
| Validation.ShapeRowsIdempotent | python/agents/data-science/data_science/sub_agents/bigquery/tools.py:368-381 | Shaping already shaped rows changes nothing. |
| Validation.MessagesDistinguishable | python/agents/data-science/data_science/sub_agents/bigquery/tools.py:359-395 | The no-results message never equals an engine-error message. The refusal equals one only for an engine whose own message is the refusal's reason. |
| Validation.KeywordRefused | python/agents/data-science/data_science/sub_agents/bigquery/tools.py:343-362 | A query whose unescaped text names a keyword as a word is refused whatever the limit step appends: nothing is executed and the tool returns exactly the refusal, no rows and the disallowed-operation message. |
| Validation.DropTableRefused | python/agents/data-science/data_science/sub_agents/bigquery/tools.py:328-362 | `DROP TABLE x` is never executed, and the tool returns exactly the refusal: no rows and the disallowed-operation message. |
| Fences.StripFences | python/agents/data-science/data_science/sub_agents/bigquery/tools.py:284-286 | The response text with every "```sql" and then every "```" removed, then stripped, when the text is non-empty. Its properties are in the five lemmas below. |
| Fences.StripFencesClean | python/agents/data-science/data_science/sub_agents/bigquery/tools.py:285-286 | Non-empty generated text comes back with no triple backtick left in it and no whitespace at either end. |
| Fences.StripFencesWithoutBackticks | python/agents/data-science/data_science/sub_agents/bigquery/tools.py:285-286 | Text without a backtick is only stripped of surrounding whitespace. |
| Fences.StripFencesBlock | python/agents/data-science/data_science/sub_agents/bigquery/tools.py:286 | Around one fenced SQL block, with no other backtick, the fences go and the text before, inside and after them is kept in order. The exception is a closing fence directly followed by "sql": the first pass reads it as an opener, so those three letters go too. |
| Fences.StripFencesOnlyBlock | python/agents/data-science/data_science/sub_agents/bigquery/tools.py:286 | A response that is exactly one fenced SQL block comes back as the stripped block body. |
| Fences.StripFencesFalsy | python/agents/data-science/data_science/sub_agents/bigquery/tools.py:285 | A missing or empty response text is passed through as it is. |

## Left out

- Client construction, the settings memo and every call to BigQuery are left out: `get_bq_client`, `get_database_settings` and `update_database_settings`, the `INFORMATION_SCHEMA` listing, `get_table`, the sample query and `to_dataframe`. Their results become inputs: the table descriptions with their sample outcome, and the engine function of `Validation.Validate`.
- A failure of the table listing or of `get_table` propagates out of `get_bigquery_schema`. That exception path is left out.
- The prompt text and the language-model call of `initial_bq_nl2sql` are left out. Only the fence stripping of the response is modelled.
- Logging, `print`, and the writes to `tool_context.state` (the SQL query and `query_result`) are side effects outside the returned values and are left out.
- `pd.isna` on a list or array is left out. It tests the elements one by one, so the `if` raises for a multi-element array and a one-element array holding a missing value serializes as `NULL`. The model's `Null` is exactly the values that test missing, and arrays always serialize as brackets.
- A serializer exception in the middle of the sample rows is left out. The source then keeps the example header and the INSERTs already appended to the table's statement, followed by the note. The model's sample outcome is all rows or a failed fetch.
- Serializer.Serialize keeps three renderings as opaque text:
  - the permissive UTF-8 decoding of bytes (the `Bytes` variant holds the decoded text);
  - `str()` of dates, datetimes and timestamps;
  - `str()` of numbers and other scalars.
- LiteralParser.ParseLiteralSerialize is proved only for well-formed values, because other values need not read back:
  - a temporal text must hold no quote or backslash;
  - a scalar text must be a non-empty run of characters other than quotes, commas, brackets and parentheses, and must not be `NULL`.

  The shape also drops struct keys, just as the serializer does.
- ParseSerialized: stated for well-formed values only, like `ParseLiteralSerialize` and for the same reason.
- ParseSerializedList: stated for lists whose elements are all well-formed, like `ParseLiteralSerialize` and for the same reason.
- Gate.Search, Gate.Disallowed: the model is ASCII-only. `\w` and `\b` are ASCII. Case-insensitive matching is ASCII lower-casing, so Unicode-mode word characters and the non-ASCII case-folding partners of `s`, `i` and `k` (`ſ`, `ı`, `İ`, `K`) are left out.
- Cleanup.CleanupSql lowers only ASCII letters. Python's full `lower()` is left out. No non-ASCII character lowers to the letters of "limit" without a combining mark after it, so the containment test is the same.
- Strings.ReplaceAll requires a non-empty pattern. Every `replace` in the modelled code has one.
- Dates.FormatDate pads the year to four digits. On Linux with glibc, CPython's `strftime` renders `%Y` for years below 1000 without padding (`999-01-05`), and the Python 3.12 or later that the module's nested same-quote f-strings need does so too. That platform's rendering is left out: the model keeps the ten-character form, so it matches other platforms and years from 1000 on.
- Validation.RenderRow keeps rows as ordered key-value sequences. The collapse of duplicate keys by the source's dict comprehension is left out; BigQuery result columns have distinct names.
- Exceptions raised while iterating or converting result rows are caught by the same handler as engine errors. The model folds them into the engine's `Failed` outcome.
- The docstring's claims that the validation is a dry run returning a string are not modelled. The source executes the query and returns a dictionary, and so does the model.

=== FILE: cleanup.dfy ===
/**
 `cleanup_sql`: four `str.replace` passes that undo escapes left in generated
 SQL, then a row limit appended when the text does not mention "limit".
 */
module Cleanup {
  import opened Strings
  import opened Gate
  import opened Decimal

  /** `MAX_NUM_ROWS`: the row cap of validated queries and of their results. */
  const MaxNumRows := 80

  /** `" limit " + str(MAX_NUM_ROWS)`. */
  const LimitClause := " limit 80"

  /** The clause is " limit " followed by the decimal digits of `MaxNumRows`,
      which has exactly two of them. */
  lemma LimitClauseNamesMaxNumRows()
    ensures Power10(1) <= MaxNumRows < Power10(2)
    ensures LimitClause == " limit " + Padded(MaxNumRows, 2)
    ensures DigitsValue(LimitClause[7..]) == MaxNumRows
  {
    assert Padded(MaxNumRows, 2) == "80";
    DigitsValuePadded(MaxNumRows, 2);
  }

  /** The four passes, in source order: `\"` to `"`, backslash-newline to
      newline, `\'` to `'`, and the two characters `\n` to a newline. */
  function Unescape(s: string): string
  {
    var s1 := ReplaceAll(s, "\\\"", "\"");
    var s2 := ReplaceAll(s1, "\\\n", "\n");
    var s3 := ReplaceAll(s2, "\\'", "'");
    ReplaceAll(s3, "\\n", "\n")
  }

  /** The cleaned query always mentions "limit" in some letter case, and is
      the unescaped text, possibly followed by the limit clause. */
  function CleanupSql(sql: string): (r: string)
    ensures Contains(Lower(r), "limit")
    ensures r == Unescape(sql) || r == Unescape(sql) + LimitClause
  {
    var c := Unescape(sql);
    if Contains(Lower(c), "limit") then c
    else
      LimitClauseMentionsLimit(c);
      c + LimitClause
  }

  lemma LimitClauseMentionsLimit(c: string)
    ensures Contains(Lower(c + LimitClause), "limit")
  {
    LowerAppend(c, LimitClause);
    assert Lower(LimitClause) == LimitClause;
    assert LimitClause[1..6] == "limit";
    ContainsAt(LimitClause, "limit", 1);
    ContainsRight(Lower(c), LimitClause, "limit");
  }

  /** The limit clause is appended exactly when the unescaped text does not
      already contain "limit", whether as a keyword or inside another word. */
  lemma CleanupAppendsLimitIff(sql: string)
    ensures CleanupSql(sql) == Unescape(sql) <==> Contains(Lower(Unescape(sql)), "limit")
    ensures CleanupSql(sql) == Unescape(sql) + LimitClause <==> !Contains(Lower(Unescape(sql)), "limit")
  {
    var c := Unescape(sql);
    assert |c + LimitClause| != |c|;
  }

  /** Each pass only shortens the text, so cleanup adds at most the clause. */
  lemma CleanupLength(sql: string)
    ensures |Unescape(sql)| <= |sql|
    ensures |CleanupSql(sql)| <= |sql| + |LimitClause|
  {
    var s1 := ReplaceAll(sql, "\\\"", "\"");
    var s2 := ReplaceAll(s1, "\\\n", "\n");
    var s3 := ReplaceAll(s2, "\\'", "'");
    ReplaceAllShrinks(sql, "\\\"", "\"");
    ReplaceAllShrinks(s1, "\\\n", "\n");
    ReplaceAllShrinks(s2, "\\'", "'");
    ReplaceAllShrinks(s3, "\\n", "\n");
  }

  /** A text with no backslash in it is left alone by the four passes. */
  lemma UnescapeWithoutBackslash(s: string)
    requires Lacks(s, '\\')
    ensures Unescape(s) == s
  {
    NoBackslashNoEscape(s, "\\\"");
    ReplaceAllAbsent(s, "\\\"", "\"");
    NoBackslashNoEscape(s, "\\\n");
    ReplaceAllAbsent(s, "\\\n", "\n");
    NoBackslashNoEscape(s, "\\'");
    ReplaceAllAbsent(s, "\\'", "'");
    NoBackslashNoEscape(s, "\\n");
    ReplaceAllAbsent(s, "\\n", "\n");
  }

  lemma NoBackslashNoEscape(s: string, p: string)
    requires Lacks(s, '\\')
    requires |p| > 0 && p[0] == '\\'
    ensures !Contains(s, p)
  {
    forall i | 0 <= i <= |s| - |p|
      ensures !OccursAt(s, p, i)
    {
      assert s[i..i + |p|][0] == s[i];
    }
  }

  /** A backslash written before an escaped newline survives the passes: the
      last pass turns `\\n` into a backslash and a newline, not a newline. */
  lemma DoubledBackslashExample()
    ensures Unescape("\\\\n") == "\\\n"
  {
  }

  /** The characters the four patterns are made of. */
  const EscapeChars: set<char> := {'\\', '"', '\n', '\'', 'n'}

  /** A pass whose pattern is made of escape characters keeps every "limit",
      in whatever letter case it is written. */
  lemma PassKeepsLimit(s: string, pat: string, rep: string)
    requires |pat| > 0 && forall m :: 0 <= m < |pat| ==> pat[m] in EscapeChars
    requires Contains(Lower(s), "limit")
    ensures Contains(Lower(ReplaceAll(s, pat, rep)), "limit")
  {
    var i :| 0 <= i <= |s| - 5 && OccursAt(Lower(s), "limit", i);
    var w := s[i..i + 5];
    LowerSlice(s, i, i + 5);
    assert Lower(w) == "limit";
    assert SharesNoChar(w, pat) by {
      forall k, m | 0 <= k < |w| && 0 <= m < |pat|
        ensures w[k] != pat[m]
      {
        assert LowerChar(w[k]) == "limit"[k];
        assert LowerChar(pat[m]) == pat[m];
      }
    }
    assert OccursAt(s, w, i);
    ReplaceAllKeeps(s, w, pat, rep, i);
    var r := ReplaceAll(s, pat, rep);
    var j :| 0 <= j <= |r| - |w| && OccursAt(r, w, j);
    LowerSlice(r, j, j + 5);
    ContainsAt(Lower(r), "limit", j);
  }

  /** Unescaping never breaks a "limit": none of the four patterns shares a
      character with it. */
  lemma UnescapeKeepsLimit(s: string)
    requires Contains(Lower(s), "limit")
    ensures Contains(Lower(Unescape(s)), "limit")
  {
    var s1 := ReplaceAll(s, "\\\"", "\"");
    var s2 := ReplaceAll(s1, "\\\n", "\n");
    var s3 := ReplaceAll(s2, "\\'", "'");
    PassKeepsLimit(s, "\\\"", "\"");
    PassKeepsLimit(s1, "\\\n", "\n");
    PassKeepsLimit(s2, "\\'", "'");
    PassKeepsLimit(s3, "\\n", "\n");
  }

  /** A query that mentions "limit" in any letter case, even inside another
      word, gets no limit clause. */
  lemma MentionedLimitKept(sql: string)
    requires Contains(Lower(sql), "limit")
    ensures CleanupSql(sql) == Unescape(sql)
  {
    UnescapeKeepsLimit(sql);
  }

  /** The test is on substrings, so a query naming a column "unlimited"
      gets no row limit, whatever surrounds it. */
  lemma UnlimitedSuppressesLimit(a: string, b: string)
    ensures CleanupSql(a + "unlimited" + b) == Unescape(a + "unlimited" + b)
  {
    var w := "unlimited";
    LowerAppend(a + w, b);
    LowerAppend(a, w);
    assert Lower(w) == w;
    assert w[2..7] == "limit";
    ContainsAt(w, "limit", 2);
    ContainsRight(Lower(a), w, "limit");
    ContainsLeft(Lower(a) + w, Lower(b), "limit");
    MentionedLimitKept(a + w + b);
  }

  /** The pass for escape `e` replaces it when it is the only backslash. */
  lemma EscapePass(a: string, b: string, e: string, rep: string)
    requires |e| == 2 && e[0] == '\\'
    requires Lacks(a, '\\') && Lacks(b, '\\')
    ensures ReplaceAll(a + e + b, e, rep) == a + rep + b
  {
    assert a + e + b == a + (e + b);
    ReplaceAllCopiesPrefix(a, e + b, e, rep);
    ReplaceAllAtStart(e, b, rep);
    ReplaceAllLacking(b, e, rep);
  }

  /** The pass for another escape leaves escape `e` where it is. */
  lemma OtherPassKeepsEscape(a: string, b: string, e: string, pat: string, rep: string)
    requires |e| == 2 && e[0] == '\\' && e[1] != '\\'
    requires |pat| == 2 && pat[0] == '\\' && pat != e
    requires Lacks(a, '\\') && Lacks(b, '\\')
    ensures ReplaceAll(a + e + b, pat, rep) == a + e + b
  {
    var cb := [e[1]] + b;
    LacksConcat([e[1]], b, '\\');
    assert a + e + b == a + ("\\" + cb);
    ReplaceAllCopiesPrefix(a, "\\" + cb, pat, rep);
    var t := "\\" + cb;
    assert t[..2] != pat by {
      assert t[..2] == e;
    }
    assert t[1..] == cb;
    ReplaceAllLacking(cb, pat, rep);
    assert t == e + b;
  }

  /** The first pass: `\"`, the only backslash in the text, becomes `"` and
      nothing else changes. */
  lemma EscapedQuoteBecomesQuote(a: string, b: string)
    requires Lacks(a, '\\') && Lacks(b, '\\')
    ensures Unescape(a + "\\\"" + b) == a + "\"" + b
  {
    var r := a + "\"" + b;
    EscapePass(a, b, "\\\"", "\"");
    LacksConcat(a, "\"", '\\');
    LacksConcat(a + "\"", b, '\\');
    ReplaceAllLacking(r, "\\\n", "\n");
    ReplaceAllLacking(r, "\\'", "'");
    ReplaceAllLacking(r, "\\n", "\n");
  }

  /** The second pass: a backslash before a line break, the only backslash in
      the text, is dropped and nothing else changes. */
  lemma EscapedLineBreakBecomesLineBreak(a: string, b: string)
    requires Lacks(a, '\\') && Lacks(b, '\\')
    ensures Unescape(a + "\\\n" + b) == a + "\n" + b
  {
    var r := a + "\n" + b;
    OtherPassKeepsEscape(a, b, "\\\n", "\\\"", "\"");
    EscapePass(a, b, "\\\n", "\n");
    LacksConcat(a, "\n", '\\');
    LacksConcat(a + "\n", b, '\\');
    ReplaceAllLacking(r, "\\'", "'");
    ReplaceAllLacking(r, "\\n", "\n");
  }

  /** The third pass: `\'`, the only backslash in the text, becomes `'` and
      nothing else changes. */
  lemma EscapedApostropheBecomesApostrophe(a: string, b: string)
    requires Lacks(a, '\\') && Lacks(b, '\\')
    ensures Unescape(a + "\\'" + b) == a + "'" + b
  {
    var r := a + "'" + b;
    OtherPassKeepsEscape(a, b, "\\'", "\\\"", "\"");
    OtherPassKeepsEscape(a, b, "\\'", "\\\n", "\n");
    EscapePass(a, b, "\\'", "'");
    LacksConcat(a, "'", '\\');
    LacksConcat(a + "'", b, '\\');
    ReplaceAllLacking(r, "\\n", "\n");
  }

  /** The fourth pass: the two characters `\n`, the only backslash in the
      text, become a newline and nothing else changes. */
  lemma EscapedNewlineBecomesNewline(a: string, b: string)
    requires Lacks(a, '\\') && Lacks(b, '\\')
    ensures Unescape(a + "\\n" + b) == a + "\n" + b
  {
    OtherPassKeepsEscape(a, b, "\\n", "\\\"", "\"");
    OtherPassKeepsEscape(a, b, "\\n", "\\\n", "\n");
    OtherPassKeepsEscape(a, b, "\\n", "\\'", "'");
    EscapePass(a, b, "\\n", "\n");
  }

  lemma GluedKeywordHasNoLimit()
    ensures !Contains(Lower("x\ndrop"), "limit")
  {
    var c := Lower("x\ndrop");
    assert c == "x\ndrop";
    forall i | 0 <= i <= |c| - 5
      ensures !OccursAt(c, "limit", i)
    {
      assert c[i + 1] != 'i';
    }
  }

  /** The gate inspects the cleaned query: a keyword that an escaped newline
      glues to the preceding word becomes a word of its own after cleanup. */
  lemma EscapedNewlineExposesKeyword()
    ensures !MatchesAt("x\\ndrop", 3, "drop")
    ensures Disallowed(CleanupSql("x\\ndrop"))
  {
    var c := "x\ndrop";
    EscapedNewlineBecomesNewline("x", "drop");
    assert "x" + "\\n" + "drop" == "x\\ndrop";
    assert "x" + "\n" + "drop" == c;
    GluedKeywordHasNoLimit();
    assert Lower("drop") == "drop";
    KeywordAsWord("x\n", "drop", LimitClause, 2);
    assert "x\n" + "drop" + LimitClause == c + LimitClause;
  }
}

=== FILE: dates.dfy ===
/**
 Calendar dates as `datetime.date` holds them, and their rendering by
 `strftime("%Y-%m-%d")`.
 */
module Dates {
  import opened Wrappers
  import opened Decimal

  datatype Date = Date(year: int, month: int, day: int)

  predicate IsLeapYear(y: int)
  {
    y % 4 == 0 && (y % 100 != 0 || y % 400 == 0)
  }

  function DaysInMonth(y: int, m: int): int
    requires 1 <= m <= 12
  {
    if m == 2 then (if IsLeapYear(y) then 29 else 28)
    else if m == 4 || m == 6 || m == 9 || m == 11 then 30
    else 31
  }

  /** The dates `datetime.date` can represent: years 1 to 9999. */
  predicate ValidDate(d: Date)
  {
    1 <= d.year <= 9999 && 1 <= d.month <= 12 && 1 <= d.day <= DaysInMonth(d.year, d.month)
  }

  type CalendarDate = d: Date | ValidDate(d) witness Date(1, 1, 1)

  /** `%Y-%m-%d`: a four-digit year, two-digit month and two-digit day, each
      zero-padded, separated by dashes. */
  function FormatDate(d: Date): (r: string)
    requires ValidDate(d)
    ensures |r| == 10 && r[4] == '-' && r[7] == '-'
  {
    Padded(d.year, 4) + "-" + Padded(d.month, 2) + "-" + Padded(d.day, 2)
  }

  /** Reads a `YYYY-MM-DD` text back to the date it names. */
  function ParseDate(s: string): Option<Date>
  {
    if |s| == 10 && s[4] == '-' && s[7] == '-'
       && (forall i :: 0 <= i < 10 && i != 4 && i != 7 ==> IsDigit(s[i]))
    then
      var d := Date(DigitsValue(s[..4]), DigitsValue(s[5..7]), DigitsValue(s[8..]));
      if ValidDate(d) then Some(d) else None
    else None
  }

  /** The rendered date reads back to the same date. */
  lemma ParseFormatDate(d: Date)
    requires ValidDate(d)
    ensures ParseDate(FormatDate(d)) == Some(d)
  {
    var r := FormatDate(d);
    assert r[..4] == Padded(d.year, 4);
    assert r[5..7] == Padded(d.month, 2);
    assert r[8..] == Padded(d.day, 2);
    DigitsValuePadded(d.year, 4);
    DigitsValuePadded(d.month, 2);
    DigitsValuePadded(d.day, 2);
  }

  /** A text that reads as a date is exactly that date's rendering. */
  lemma FormatParseDate(s: string)
    requires ParseDate(s).Some?
    ensures FormatDate(ParseDate(s).value) == s
  {
    PaddedDigitsValue(s[..4]);
    PaddedDigitsValue(s[5..7]);
    PaddedDigitsValue(s[8..]);
    assert s == s[..4] + "-" + s[5..7] + "-" + s[8..];
  }

  /** Hence distinct dates render differently. */
  lemma FormatDateInjective(d: Date, e: Date)
    requires ValidDate(d) && ValidDate(e)
    requires FormatDate(d) == FormatDate(e)
    ensures d == e
  {
    ParseFormatDate(d);
    ParseFormatDate(e);
  }

  lemma FormatDateExample()
    ensures FormatDate(Date(2024, 1, 5)) == "2024-01-05"
  {
  }
}

=== FILE: decimal.dfy ===
/**
 Decimal digits: `str()` of a non-negative number, zero-padded to a width, and
 the value of a digit string.
 */
module Decimal {

  function DigitChar(n: int): char
    requires 0 <= n < 10
  {
    (n + '0' as int) as char
  }

  predicate IsDigit(c: char)
  {
    '0' <= c <= '9'
  }

  function DigitValue(c: char): int
    requires IsDigit(c)
  {
    c as int - '0' as int
  }

  /** `n` in decimal, zero-padded to `width` digits. */
  function Padded(n: int, width: nat): (r: string)
    requires 0 <= n
    ensures |r| == width
    ensures forall i :: 0 <= i < |r| ==> IsDigit(r[i])
  {
    if width == 0 then "" else Padded(n / 10, width - 1) + [DigitChar(n % 10)]
  }

  /** The value of a string of decimal digits. */
  function DigitsValue(s: string): (n: int)
    requires forall i :: 0 <= i < |s| ==> IsDigit(s[i])
    ensures 0 <= n
  {
    if |s| == 0 then 0 else 10 * DigitsValue(s[..|s| - 1]) + DigitValue(s[|s| - 1])
  }

  function Power10(width: nat): (p: int)
    ensures p > 0
  {
    if width == 0 then 1 else 10 * Power10(width - 1)
  }

  /** Zero-padding loses nothing for numbers that fit the width. */
  lemma {:induction false} DigitsValuePadded(n: int, width: nat)
    requires 0 <= n < Power10(width)
    ensures DigitsValue(Padded(n, width)) == n
  {
    if width > 0 {
      var p := Padded(n, width);
      var prefix := Padded(n / 10, width - 1);
      assert p[..|p| - 1] == prefix;
      DigitsValuePadded(n / 10, width - 1);
    }
  }

  /** Reading digits and padding them back to the same width restores them. */
  lemma {:induction false} PaddedDigitsValue(s: string)
    requires forall i :: 0 <= i < |s| ==> IsDigit(s[i])
    ensures DigitsValue(s) < Power10(|s|)
    ensures Padded(DigitsValue(s), |s|) == s
  {
    if |s| > 0 {
      var init := s[..|s| - 1];
      PaddedDigitsValue(init);
      var n := DigitsValue(s);
      assert n / 10 == DigitsValue(init);
      assert n % 10 == DigitValue(s[|s| - 1]);
      assert s == init + [s[|s| - 1]];
    }
  }
}

=== FILE: escaping.dfy ===
/**
 The quote escaping used for SQL literal bodies: a text or bytes value has its
 backslashes doubled and then its single quotes doubled; a column description
 has only its single quotes doubled. Both are instances of "double every
 character of a set", whose inverse reads pairs back left to right.
 */
module Escaping {
  import opened Wrappers
  import opened Strings

  /** Characters doubled inside a text or bytes literal. */
  const LiteralSpecials: set<char> := {'\\', '\''}

  /** Characters doubled inside a column description. */
  const DescriptionSpecials: set<char> := {'\''}

  /** Reference definition: each character of `cs` written twice, every other
      character once. */
  function DoubleEach(s: string, cs: set<char>): string
  {
    if |s| == 0 then ""
    else (if s[0] in cs then [s[0], s[0]] else [s[0]]) + DoubleEach(s[1..], cs)
  }

  function Prepend(c: char, rest: Option<string>): Option<string>
  {
    match rest
    case None => None
    case Some(u) => Some([c] + u)
  }

  /** Reads a doubled body back left to right: a character of `cs` must come
      as a pair and stands for one copy; a lone one makes the body malformed. */
  function Undouble(t: string, cs: set<char>): Option<string>
    decreases |t|
  {
    if |t| == 0 then Some("")
    else if t[0] in cs then
      if |t| >= 2 && t[1] == t[0] then Prepend(t[0], Undouble(t[2..], cs)) else None
    else Prepend(t[0], Undouble(t[1..], cs))
  }

  /** The body of a text literal: `\` doubled first, then `'` doubled. */
  function EscapeText(s: string): string
  {
    ReplaceAll(ReplaceAll(s, "\\", "\\\\"), "'", "''")
  }

  /** The body of a column description: `'` doubled. */
  function QuoteDescription(d: string): string
  {
    ReplaceAll(d, "'", "''")
  }

  /** Two single-character doubling passes over distinct characters, in either
      order, double both characters. */
  lemma {:induction false} TwoPassesDoubleBoth(s: string, a: char, b: char)
    requires a != b
    ensures ReplaceChar(ReplaceChar(s, a, [a, a]), b, [b, b]) == DoubleEach(s, {a, b})
    decreases |s|
  {
    if |s| > 0 {
      var head := if s[0] == a then [a, a] else [s[0]];
      ReplaceCharAppend(head, ReplaceChar(s[1..], a, [a, a]), b, [b, b]);
      TwoPassesDoubleBoth(s[1..], a, b);
    }
  }

  lemma {:induction false} OnePassDoubles(s: string, a: char)
    ensures ReplaceChar(s, a, [a, a]) == DoubleEach(s, {a})
    decreases |s|
  {
    if |s| > 0 {
      OnePassDoubles(s[1..], a);
    }
  }

  /** The two `replace` passes on a text value double exactly its backslashes
      and single quotes. */
  lemma EscapeTextDoubles(s: string)
    ensures EscapeText(s) == DoubleEach(s, LiteralSpecials)
  {
    ReplaceAllOneChar(s, "\\", "\\\\");
    var t := ReplaceChar(s, '\\', "\\\\");
    ReplaceAllOneChar(t, "'", "''");
    TwoPassesDoubleBoth(s, '\\', '\'');
  }

  /** Because quotes are escaped by doubling (never by a backslash), the order
      of the two passes does not change the result. */
  lemma EscapeOrderIrrelevant(s: string)
    ensures ReplaceAll(ReplaceAll(s, "'", "''"), "\\", "\\\\") == EscapeText(s)
  {
    ReplaceAllOneChar(s, "'", "''");
    var t := ReplaceChar(s, '\'', "''");
    ReplaceAllOneChar(t, "\\", "\\\\");
    TwoPassesDoubleBoth(s, '\'', '\\');
    EscapeTextDoubles(s);
    assert {'\'', '\\'} == LiteralSpecials;
  }

  lemma QuoteDescriptionDoubles(d: string)
    ensures QuoteDescription(d) == DoubleEach(d, DescriptionSpecials)
  {
    ReplaceAllOneChar(d, "'", "''");
    OnePassDoubles(d, '\'');
  }

  /** Reading a doubled body back recovers the original exactly. */
  lemma {:induction false} UndoubleDoubleEach(s: string, cs: set<char>)
    ensures Undouble(DoubleEach(s, cs), cs) == Some(s)
    decreases |s|
  {
    if |s| > 0 {
      var t := DoubleEach(s, cs);
      UndoubleDoubleEach(s[1..], cs);
      if s[0] in cs {
        assert t[2..] == DoubleEach(s[1..], cs);
      } else {
        assert t[1..] == DoubleEach(s[1..], cs);
      }
      assert s == [s[0]] + s[1..];
    }
  }

  /** Conversely, every body that reads back is the doubling of what it reads
      back to: the doubling is onto the well-formed bodies. */
  lemma {:induction false} DoubleEachUndouble(t: string, s: string, cs: set<char>)
    requires Undouble(t, cs) == Some(s)
    ensures DoubleEach(s, cs) == t
    decreases |t|
  {
    if |t| > 0 {
      if t[0] in cs {
        var u := Undouble(t[2..], cs).value;
        DoubleEachUndouble(t[2..], u, cs);
        assert s[1..] == u;
        assert t == [t[0], t[0]] + t[2..];
      } else {
        var u := Undouble(t[1..], cs).value;
        DoubleEachUndouble(t[1..], u, cs);
        assert s[1..] == u;
        assert t == [t[0]] + t[1..];
      }
    }
  }

  /** Round trip of the text-literal escaping, and the escaped body holds no
      lone quote or backslash (it reads back without error). */
  lemma EscapeTextRoundTrip(s: string)
    ensures Undouble(EscapeText(s), LiteralSpecials) == Some(s)
  {
    EscapeTextDoubles(s);
    UndoubleDoubleEach(s, LiteralSpecials);
  }

  /** Round trip of the description escaping. */
  lemma QuoteDescriptionRoundTrip(d: string)
    ensures Undouble(QuoteDescription(d), DescriptionSpecials) == Some(d)
  {
    QuoteDescriptionDoubles(d);
    UndoubleDoubleEach(d, DescriptionSpecials);
  }

  /** Text free of quotes and backslashes is its own escaping. */
  lemma {:induction false} DoubleEachIdentity(s: string, cs: set<char>)
    requires forall i :: 0 <= i < |s| ==> s[i] !in cs
    ensures DoubleEach(s, cs) == s
    decreases |s|
  {
    if |s| > 0 {
      DoubleEachIdentity(s[1..], cs);
    }
  }
}

=== FILE: fences.dfy ===
/**
 The clean-up of generated SQL in `initial_bq_nl2sql`: when the model's text is
 non-empty, every "```sql" and then every remaining "```" is removed, and the
 result is stripped of surrounding whitespace.
 */
module Fences {
  import opened Wrappers
  import opened Strings

  const Fence := "```"

  /** `sql.replace("```sql", "").replace("```", "").strip()` when `sql` is
      truthy; `None` and the empty text pass through. */
  function StripFences(sql: Option<string>): Option<string>
  {
    if sql.None? || |sql.value| == 0 then sql
    else Some(Strip(ReplaceAll(ReplaceAll(sql.value, SqlFence, ""), Fence, "")))
  }

  /** A text that does not start with two backticks keeps that property when
      fences are removed. */
  lemma {:induction false} RemovalKeepsHead(t: string)
    requires !StartsWith(t, "``")
    ensures !StartsWith(ReplaceAll(t, Fence, ""), "``")
  {
    var r := ReplaceAll(t, Fence, "");
    if |t| > 0 && |t| >= |Fence| {
      assert t[..3][..2] == t[..2];
      if t[0] != '`' {
        assert t[..3][0] == t[0];
        assert r == [t[0]] + ReplaceAll(t[1..], Fence, "");
      } else {
        assert t[1] != '`';
        assert t[..3][1] == t[1];
        assert r == [t[0]] + ReplaceAll(t[1..], Fence, "");
        var u := ReplaceAll(t[1..], Fence, "");
        if |t[1..]| >= |Fence| {
          assert t[1..][..3][0] == t[1];
          assert u == [t[1]] + ReplaceAll(t[2..], Fence, "");
        } else {
          assert u == t[1..];
        }
        assert r[..2][1] == u[0];
      }
    }
  }

  /** Removing every "```" leaves none behind: the text left of a removed
      fence never ends in a backtick, so no new fence forms across it. */
  lemma {:induction false} NoFenceAfterRemoval(s: string)
    ensures !Contains(ReplaceAll(s, Fence, ""), Fence)
    decreases |s|
  {
    var r := ReplaceAll(s, Fence, "");
    if |s| < |Fence| {
      assert |r| < |Fence|;
    } else if s[..3] == Fence {
      NoFenceAfterRemoval(s[3..]);
      assert r == ReplaceAll(s[3..], Fence, "");
    } else {
      var u := ReplaceAll(s[1..], Fence, "");
      assert r == [s[0]] + u;
      NoFenceAfterRemoval(s[1..]);
      if s[0] == '`' {
        assert s[..3] == [s[0]] + s[1..][..2];
        RemovalKeepsHead(s[1..]);
      }
      forall i | 0 <= i <= |r| - |Fence|
        ensures !OccursAt(r, Fence, i)
      {
        if i == 0 {
          if s[0] == '`' {
            assert r[..3] == [s[0]] + u[..2];
          } else {
            assert r[..3][0] == s[0];
          }
        } else {
          assert r[i..i + 3] == u[i - 1..i + 2];
          assert !OccursAt(u, Fence, i - 1);
        }
      }
    }
  }

  /** The cleaned text holds no fence and has no surrounding whitespace. */
  lemma StripFencesClean(sql: string)
    requires |sql| > 0
    ensures StripFences(Some(sql)).Some?
    ensures !Contains(StripFences(Some(sql)).value, Fence)
    ensures var r := StripFences(Some(sql)).value;
      |r| > 0 ==> !IsSpace(r[0]) && !IsSpace(r[|r| - 1])
  {
    var t := ReplaceAll(ReplaceAll(sql, "```sql", ""), Fence, "");
    NoFenceAfterRemoval(ReplaceAll(sql, "```sql", ""));
    StripNotContains(t, Fence);
  }

  /** A text with no backtick is only stripped. */
  lemma StripFencesWithoutBackticks(sql: string)
    requires |sql| > 0
    requires Lacks(sql, '`')
    ensures StripFences(Some(sql)) == Some(Strip(sql))
  {
    NoBacktickNoFence(sql, "```sql");
    ReplaceAllAbsent(sql, "```sql", "");
    NoBacktickNoFence(sql, Fence);
    ReplaceAllAbsent(sql, Fence, "");
  }

  lemma NoBacktickNoFence(s: string, p: string)
    requires Lacks(s, '`')
    requires |p| > 0 && p[0] == '`'
    ensures !Contains(s, p)
  {
    forall i | 0 <= i <= |s| - |p|
      ensures !OccursAt(s, p, i)
    {
      assert s[i..i + |p|][0] == s[i];
    }
  }

  /** The opener of a fenced SQL block. */
  const SqlFence := "```sql"

  /** The first pass removes the opener and stops at the closing fence. */
  lemma OpenerRemoved(p: string, q: string, r: string)
    requires Lacks(p, '`') && Lacks(q, '`')
    ensures ReplaceAll(p + SqlFence + q + Fence + r, SqlFence, "")
         == p + q + ReplaceAll(Fence + r, SqlFence, "")
  {
    var tail := Fence + r;
    var rest := q + tail;
    assert p + SqlFence + q + Fence + r == p + (SqlFence + rest);
    assert SqlFence[0] == '`';
    ReplaceAllCopiesPrefix(p, SqlFence + rest, SqlFence, "");
    ReplaceAllAtStart(SqlFence, rest, "");
    assert "" + ReplaceAll(rest, SqlFence, "") == ReplaceAll(rest, SqlFence, "");
    ReplaceAllCopiesPrefix(q, tail, SqlFence, "");
    assert p + (q + ReplaceAll(tail, SqlFence, "")) == p + q + ReplaceAll(tail, SqlFence, "");
  }

  /** A closing fence is taken for an opener exactly when "sql" follows it. */
  lemma ClosingFenceFirstPass(r: string)
    requires Lacks(r, '`')
    ensures StartsWith(r, "sql") ==> ReplaceAll(Fence + r, SqlFence, "") == r[3..]
    ensures !StartsWith(r, "sql") ==> ReplaceAll(Fence + r, SqlFence, "") == Fence + r
  {
    var t := Fence + r;
    if StartsWith(r, "sql") {
      assert t == SqlFence + r[3..];
      ReplaceAllAtStart(SqlFence, r[3..], "");
      assert Lacks(r[3..], '`');
      ReplaceAllLacking(r[3..], SqlFence, "");
    } else {
      forall i | 0 <= i <= |t| - |SqlFence|
        ensures !OccursAt(t, SqlFence, i)
      {
        if i == 0 {
          assert t[i..i + 6][3..] == r[..3];
        } else if i < 3 {
          assert t[i..i + 6][3 - i] == r[0];
        } else {
          assert t[i..i + 6][0] == r[i - 3];
        }
      }
      ReplaceAllAbsent(t, SqlFence, "");
    }
  }

  /** The second pass removes a closing fence between backtick-free texts. */
  lemma ClosingFenceRemoved(x: string, r: string)
    requires Lacks(x, '`') && Lacks(r, '`')
    ensures ReplaceAll(x + Fence + r, Fence, "") == x + r
  {
    assert x + Fence + r == x + (Fence + r);
    ReplaceAllCopiesPrefix(x, Fence + r, Fence, "");
    ReplaceAllAtStart(Fence, r, "");
    ReplaceAllLacking(r, Fence, "");
    assert "" + r == r;
  }

  /** A fenced SQL block with backtick-free text around it: the fences go and
      the text before, inside and after them is kept in order. A closing
      fence directly followed by "sql" is read as an opener by the first
      pass, so those three letters go with it. */
  lemma StripFencesBlock(p: string, q: string, r: string)
    requires Lacks(p, '`') && Lacks(q, '`') && Lacks(r, '`')
    ensures StartsWith(r, "sql") ==>
      StripFences(Some(p + SqlFence + q + Fence + r)) == Some(Strip(p + q + r[3..]))
    ensures !StartsWith(r, "sql") ==>
      StripFences(Some(p + SqlFence + q + Fence + r)) == Some(Strip(p + q + r))
  {
    var s := p + SqlFence + q + Fence + r;
    assert |s| > 0;
    var first := ReplaceAll(s, SqlFence, "");
    OpenerRemoved(p, q, r);
    ClosingFenceFirstPass(r);
    LacksConcat(p, q, '`');
    if StartsWith(r, "sql") {
      assert first == p + q + r[3..];
      assert Lacks(r[3..], '`');
      LacksConcat(p + q, r[3..], '`');
      ReplaceAllLacking(p + q + r[3..], Fence, "");
    } else {
      assert first == p + q + Fence + r;
      ClosingFenceRemoved(p + q, r);
    }
  }

  /** The usual model answer: one fenced block and nothing around it. */
  lemma StripFencesOnlyBlock(q: string)
    requires Lacks(q, '`')
    ensures StripFences(Some(SqlFence + q + Fence)) == Some(Strip(q))
  {
    StripFencesBlock("", q, "");
    assert "" + SqlFence + q + Fence + "" == SqlFence + q + Fence;
    assert "" + q + "" == q;
  }

  /** `None` and the empty text come back unchanged. */
  lemma StripFencesFalsy(sql: Option<string>)
    requires sql.None? || sql.value == ""
    ensures StripFences(sql) == sql
  {
  }
}

=== FILE: gate.dfy ===
/**
 The read-only gate of `run_bigquery_validation`: a case-insensitive search of
 the cleaned query for any of eight DML/DDL keywords as a whole word, the
 regular expression `(?i)\b(update|delete|drop|insert|create|alter|truncate|merge)\b`.
 */
module Gate {
  import opened Wrappers
  import opened Strings

  /** The alternatives of the pattern, in the order they are tried. */
  const Keywords: seq<string> := ["update", "delete", "drop", "insert", "create", "alter", "truncate", "merge"]

  /** The characters `\w` matches, restricted to ASCII. */
  predicate IsWordChar(c: char)
  {
    'a' <= c <= 'z' || 'A' <= c <= 'Z' || '0' <= c <= '9' || c == '_'
  }

  /** `\b` at index `i`: a word character on exactly one side of it. */
  predicate BoundaryAt(s: string, i: int)
    requires 0 <= i <= |s|
  {
    (i > 0 && IsWordChar(s[i - 1])) != (i < |s| && IsWordChar(s[i]))
  }

  /** The pattern matches at `i` with keyword `kw`: the text there spells `kw`
      in any case, with a word boundary before and after it. */
  predicate MatchesAt(s: string, i: int, kw: string)
  {
    && 0 <= i && i + |kw| <= |s|
    && BoundaryAt(s, i)
    && Lower(s[i..i + |kw|]) == kw
    && BoundaryAt(s, i + |kw|)
  }

  /** `re.search(...)` finds a match somewhere. */
  predicate Disallowed(s: string)
  {
    exists i, k :: 0 <= i <= |s| && 0 <= k < |Keywords| && MatchesAt(s, i, Keywords[k])
  }

  /** The search as the regular-expression engine runs it: positions from the
      left, and at each position the alternatives in order; the first match
      found is reported. */
  method Search(s: string) returns (m: Option<(int, string)>)
    ensures m.None? <==> !Disallowed(s)
    ensures m.Some? ==> m.value.1 in Keywords && MatchesAt(s, m.value.0, m.value.1)
    ensures m.Some? ==>
      forall j, k :: 0 <= j < m.value.0 && 0 <= k < |Keywords| ==> !MatchesAt(s, j, Keywords[k])
  {
    var i := 0;
    while i <= |s|
      invariant 0 <= i <= |s| + 1
      invariant forall j, k :: 0 <= j < i && 0 <= k < |Keywords| ==> !MatchesAt(s, j, Keywords[k])
    {
      var k := 0;
      while k < |Keywords|
        invariant 0 <= k <= |Keywords|
        invariant forall k' :: 0 <= k' < k ==> !MatchesAt(s, i, Keywords[k'])
      {
        if MatchesAt(s, i, Keywords[k]) {
          return Some((i, Keywords[k]));
        }
        k := k + 1;
      }
      i := i + 1;
    }
    return None;
  }

  lemma LowerCharIdempotent(c: char)
    ensures LowerChar(LowerChar(c)) == LowerChar(c)
    ensures IsWordChar(LowerChar(c)) == IsWordChar(c)
  {
  }

  /** Lower-casing commutes with slicing. */
  lemma LowerSlice(s: string, i: int, j: int)
    requires 0 <= i <= j <= |s|
    ensures Lower(s)[i..j] == Lower(s[i..j])
  {
  }

  /** The gate does not depend on letter case: a match in a text is a match, at
      the same place, in its lower-cased form, and the other way round. */
  lemma MatchesAtLower(s: string, i: int, kw: string)
    ensures MatchesAt(s, i, kw) <==> MatchesAt(Lower(s), i, kw)
  {
    if 0 <= i && i + |kw| <= |s| {
      var t := Lower(s);
      LowerSlice(s, i, i + |kw|);
      var w := s[i..i + |kw|];
      assert Lower(t[i..i + |kw|]) == Lower(w) by {
        forall n | 0 <= n < |w|
          ensures Lower(t[i..i + |kw|])[n] == Lower(w)[n]
        {
          LowerCharIdempotent(w[n]);
        }
      }
      if i > 0 {
        LowerCharIdempotent(s[i - 1]);
      }
      if i < |s| {
        LowerCharIdempotent(s[i]);
      }
      if i + |kw| > 0 {
        LowerCharIdempotent(s[i + |kw| - 1]);
      }
      if i + |kw| < |s| {
        LowerCharIdempotent(s[i + |kw|]);
      }
    }
  }

  lemma DisallowedLower(s: string)
    ensures Disallowed(s) <==> Disallowed(Lower(s))
  {
    if Disallowed(s) {
      var i, k :| 0 <= i <= |s| && 0 <= k < |Keywords| && MatchesAt(s, i, Keywords[k]);
      MatchesAtLower(s, i, Keywords[k]);
    }
    if Disallowed(Lower(s)) {
      var i, k :| 0 <= i <= |s| && 0 <= k < |Keywords| && MatchesAt(Lower(s), i, Keywords[k]);
      MatchesAtLower(s, i, Keywords[k]);
    }
  }

  /** Every keyword begins and ends with a word character. */
  lemma KeywordsAreWords(k: int)
    requires 0 <= k < |Keywords|
    ensures |Keywords[k]| > 0
    ensures IsWordChar(Keywords[k][0]) && IsWordChar(Keywords[k][|Keywords[k]| - 1])
  {
  }

  /** A text spelling `kw`, in any letter case, with no word character on
      either side matches `kw`. */
  lemma WordMatches(before: string, word: string, after: string, kw: string)
    requires Lower(word) == kw
    requires |kw| > 0 && IsWordChar(kw[0]) && IsWordChar(kw[|kw| - 1])
    requires |before| > 0 ==> !IsWordChar(before[|before| - 1])
    requires |after| > 0 ==> !IsWordChar(after[0])
    ensures MatchesAt(before + word + after, |before|, kw)
  {
    var s := before + word + after;
    var i := |before|;
    assert s[i..i + |word|] == word;
    LowerCharIdempotent(word[0]);
    LowerCharIdempotent(word[|word| - 1]);
  }

  /** Any keyword, in any letter case, standing as a word of its own makes
      the text disallowed. */
  lemma KeywordAsWord(before: string, word: string, after: string, k: int)
    requires 0 <= k < |Keywords|
    requires Lower(word) == Keywords[k]
    requires |before| > 0 ==> !IsWordChar(before[|before| - 1])
    requires |after| > 0 ==> !IsWordChar(after[0])
    ensures Disallowed(before + word + after)
  {
    KeywordsAreWords(k);
    WordMatches(before, word, after, Keywords[k]);
  }

  /** A keyword that runs into further word characters is not a match there. */
  lemma KeywordInsideWord(s: string, i: int, kw: string)
    requires 0 < i && i + |kw| <= |s| && |kw| > 0
    requires IsWordChar(s[i - 1]) && IsWordChar(s[i])
    ensures !MatchesAt(s, i, kw)
  {
  }

  /** Appending text that starts with a non-word character keeps every match. */
  lemma DisallowedExtends(s: string, t: string)
    requires |t| > 0 ==> !IsWordChar(t[0])
    requires Disallowed(s)
    ensures Disallowed(s + t)
  {
    var i, k :| 0 <= i <= |s| && 0 <= k < |Keywords| && MatchesAt(s, i, Keywords[k]);
    var kw := Keywords[k];
    var st := s + t;
    assert st[i..i + |kw|] == s[i..i + |kw|];
    if i > 0 {
      assert st[i - 1] == s[i - 1];
    }
    if i < |s| {
      assert st[i] == s[i];
    }
    if i + |kw| > 0 {
      assert st[i + |kw| - 1] == s[i + |kw| - 1];
    }
    if i + |kw| < |s| {
      assert st[i + |kw|] == s[i + |kw|];
    } else if |t| > 0 {
      assert st[i + |kw|] == t[0];
    }
    assert MatchesAt(st, i, kw);
  }

  lemma DropTableRejected()
    ensures Disallowed("DROP TABLE x")
  {
    assert Lower("DROP") == "drop";
    KeywordAsWord("", "DROP", " TABLE x", 2);
    assert "" + "DROP" + " TABLE x" == "DROP TABLE x";
  }
}

=== FILE: literal_parser.dfy ===
/**
 A reader for the literal text the serializer writes. It is the serializer's
 partner: reading a serialized value back yields the value's shape, which
 keeps everything the text keeps (strings, bytes, nesting, order, the text of
 atoms) and drops what the serializer drops (struct keys, and the difference
 between a text value and a quoted temporal).
 */
module LiteralParser {
  import opened Wrappers
  import opened Strings
  import opened Escaping
  import opened Serializer

  datatype Literal =
    | LNull
    | LString(text: string)
    | LBytes(text: string)
    | LList(items: seq<Literal>)
    | LTuple(items: seq<Literal>)
    | LAtom(text: string)

  /** What the literal text of a value determines. */
  function Shape(v: SqlValue): Literal
  {
    match v
    case Null => LNull
    case Text(s) => LString(s)
    case Bytes(s) => LBytes(s)
    case Temporal(t) => LString(t)
    case Array(es) => LList(Shapes(es))
    case Struct(_, vs) => LTuple(Shapes(vs))
    case Scalar(t) => LAtom(t)
  }

  function Shapes(vs: seq<SqlValue>): (r: seq<Literal>)
    ensures |r| == |vs|
  {
    seq(|vs|, i requires 0 <= i < |vs| => Shape(vs[i]))
  }

  /** Characters that may appear in the unquoted text of a scalar. */
  predicate AtomChar(c: char)
  {
    c != '\'' && c != ',' && c != '[' && c != ']' && c != '(' && c != ')'
  }

  /** The values whose text the reader can take apart: a temporal's text holds
      no quote or backslash (true of every `str()` of a date or time), and a
      scalar's text is a non-empty run of atom characters other than `NULL`
      (true of the `str()` of numbers and booleans). */
  predicate WellFormed(v: SqlValue)
  {
    match v
    case Temporal(t) => forall i :: 0 <= i < |t| ==> t[i] !in LiteralSpecials
    case Scalar(t) => |t| > 0 && t != "NULL" && forall i :: 0 <= i < |t| ==> AtomChar(t[i])
    case Array(es) => forall i :: 0 <= i < |es| ==> WellFormed(es[i])
    case Struct(_, vs) => forall i :: 0 <= i < |vs| ==> WellFormed(vs[i])
    case _ => true
  }

  /** Length of the leading run of atom characters. */
  function AtomLength(s: string): (n: nat)
    ensures n <= |s|
  {
    if |s| > 0 && AtomChar(s[0]) then 1 + AtomLength(s[1..]) else 0
  }

  /** Reads a quoted body up to its closing quote, undoing the doubling of
      quotes and backslashes; yields the body and the text after the quote. */
  function ScanQuoted(t: string): (r: Option<(string, string)>)
    ensures r.Some? ==> |r.value.1| < |t|
    decreases |t|
  {
    if |t| == 0 then None
    else if t[0] == '\'' && !(|t| >= 2 && t[1] == '\'') then Some(("", t[1..]))
    else if t[0] in LiteralSpecials then
      if |t| >= 2 && t[1] == t[0] then
        match ScanQuoted(t[2..])
        case None => None
        case Some((body, rest)) => Some(([t[0]] + body, rest))
      else None
    else
      match ScanQuoted(t[1..])
      case None => None
      case Some((body, rest)) => Some(([t[0]] + body, rest))
  }

  /** Reads one literal from the front of `s`; yields it and the text after it. */
  function ParseValue(s: string): (r: Option<(Literal, string)>)
    ensures r.Some? ==> |r.value.1| < |s|
    decreases |s|, 0
  {
    if |s| == 0 then None
    else if s[0] == '\'' then
      match ScanQuoted(s[1..])
      case None => None
      case Some((body, rest)) => Some((LString(body), rest))
    else if |s| >= 2 && s[0] == 'b' && s[1] == '\'' then
      match ScanQuoted(s[2..])
      case None => None
      case Some((body, rest)) => Some((LBytes(body), rest))
    else if s[0] == '[' then
      match ParseList(s[1..], ']')
      case None => None
      case Some((items, rest)) => Some((LList(items), rest))
    else if s[0] == '(' then
      match ParseList(s[1..], ')')
      case None => None
      case Some((items, rest)) => Some((LTuple(items), rest))
    else
      var n := AtomLength(s);
      if n == 0 then None
      else if s[..n] == "NULL" then Some((LNull, s[n..]))
      else Some((LAtom(s[..n]), s[n..]))
  }

  /** Reads `", "`-separated literals up to and including `close`. */
  function ParseList(s: string, close: char): (r: Option<(seq<Literal>, string)>)
    ensures r.Some? ==> |r.value.1| < |s|
    decreases |s|, 2
  {
    if |s| > 0 && s[0] == close then Some(([], s[1..]))
    else ParseItems(s, close)
  }

  /** Reads one or more `", "`-separated literals up to and including `close`. */
  function ParseItems(s: string, close: char): (r: Option<(seq<Literal>, string)>)
    ensures r.Some? ==> |r.value.1| < |s|
    decreases |s|, 1
  {
    match ParseValue(s)
    case None => None
    case Some((item, rest)) =>
      if |rest| > 0 && rest[0] == close then Some(([item], rest[1..]))
      else if |rest| >= 2 && rest[0] == ',' && rest[1] == ' ' then
        match ParseItems(rest[2..], close)
        case None => None
        case Some((items, rest')) => Some(([item] + items, rest'))
      else None
  }

  /** Reads a whole text as exactly one literal. */
  function ParseLiteral(s: string): Option<Literal>
  {
    match ParseValue(s)
    case None => None
    case Some((lit, rest)) => if |rest| == 0 then Some(lit) else None
  }

  /** What may follow a literal inside the serializer's output. */
  predicate Delimited(rest: string)
  {
    |rest| == 0 || rest[0] == ',' || rest[0] == ']' || rest[0] == ')'
  }

  lemma {:induction false} AtomLengthOfAtom(t: string, rest: string)
    requires forall i :: 0 <= i < |t| ==> AtomChar(t[i])
    requires Delimited(rest)
    ensures AtomLength(t + rest) == |t|
    decreases |t|
  {
    if |t| > 0 {
      assert (t + rest)[1..] == t[1..] + rest;
      AtomLengthOfAtom(t[1..], rest);
    } else {
      assert t + rest == rest;
    }
  }

  /** The scanner finds the closing quote of an escaped body exactly where the
      serializer put it. */
  lemma {:induction false} ScanEscaped(s: string, rest: string)
    requires |rest| == 0 || rest[0] != '\''
    ensures ScanQuoted(DoubleEach(s, LiteralSpecials) + "'" + rest) == Some((s, rest))
    decreases |s|
  {
    var t := DoubleEach(s, LiteralSpecials) + "'" + rest;
    if |s| == 0 {
      assert t == "'" + rest;
    } else {
      ScanEscaped(s[1..], rest);
      var tail := DoubleEach(s[1..], LiteralSpecials) + "'" + rest;
      if s[0] in LiteralSpecials {
        assert t == [s[0], s[0]] + tail;
        assert t[2..] == tail;
      } else {
        assert t == [s[0]] + tail;
        assert t[1..] == tail;
      }
      assert s == [s[0]] + s[1..];
    }
  }

  /** Every well-formed literal is non-empty and does not begin with a
      closing bracket or parenthesis. */
  lemma SerializeStartsLiteral(v: SqlValue)
    requires WellFormed(v)
    ensures |Serialize(v)| > 0
    ensures Serialize(v)[0] != ']' && Serialize(v)[0] != ')'
  {
  }

  lemma ParseNullLiteral(rest: string)
    requires Delimited(rest)
    ensures ParseValue("NULL" + rest) == Some((LNull, rest))
  {
    var s := "NULL" + rest;
    AtomLengthOfAtom("NULL", rest);
    assert s[..4] == "NULL" && s[4..] == rest;
  }

  lemma ParseAtomLiteral(t: string, rest: string)
    requires WellFormed(Scalar(t)) && Delimited(rest)
    ensures ParseValue(t + rest) == Some((LAtom(t), rest))
  {
    var s := t + rest;
    AtomLengthOfAtom(t, rest);
    assert s[..|t|] == t && s[|t|..] == rest;
    assert s[0] == t[0];
    if |t| >= 2 {
      assert s[1] == t[1];
    }
  }

  lemma ParseStringLiteral(x: string, rest: string)
    requires Delimited(rest)
    ensures ParseValue("'" + EscapeText(x) + "'" + rest) == Some((LString(x), rest))
  {
    var s := "'" + EscapeText(x) + "'" + rest;
    EscapeTextDoubles(x);
    ScanEscaped(x, rest);
    assert s[1..] == DoubleEach(x, LiteralSpecials) + "'" + rest;
  }

  lemma ParseBytesLiteral(x: string, rest: string)
    requires Delimited(rest)
    ensures ParseValue("b'" + EscapeText(x) + "'" + rest) == Some((LBytes(x), rest))
  {
    var s := "b'" + EscapeText(x) + "'" + rest;
    EscapeTextDoubles(x);
    ScanEscaped(x, rest);
    assert s[2..] == DoubleEach(x, LiteralSpecials) + "'" + rest;
  }

  lemma ParseTemporalLiteral(t: string, rest: string)
    requires WellFormed(Temporal(t)) && Delimited(rest)
    ensures ParseValue("'" + t + "'" + rest) == Some((LString(t), rest))
  {
    DoubleEachIdentity(t, LiteralSpecials);
    ParseStringLiteral(t, rest);
    EscapeTextDoubles(t);
  }

  /** Round trip: reading the literal of a well-formed value yields the
      value's shape and leaves the following text untouched. */
  lemma {:induction false} ParseSerialized(v: SqlValue, rest: string)
    requires WellFormed(v) && Delimited(rest)
    ensures ParseValue(Serialize(v) + rest) == Some((Shape(v), rest))
    decreases v, 2
  {
    match v
    case Null => ParseNullLiteral(rest);
    case Text(x) => ParseStringLiteral(x, rest);
    case Bytes(x) => ParseBytesLiteral(x, rest);
    case Temporal(t) => ParseTemporalLiteral(t, rest);
    case Array(_) => ParseSerializedBracketed(v, rest);
    case Struct(_, _) => ParseSerializedBracketed(v, rest);
    case Scalar(t) => ParseAtomLiteral(t, rest);
  }

  /** Round trip for an array or a struct: its bracket, its items, its closer. */
  lemma {:induction false} ParseSerializedBracketed(v: SqlValue, rest: string)
    requires v.Array? || v.Struct?
    requires WellFormed(v) && Delimited(rest)
    ensures ParseValue(Serialize(v) + rest) == Some((Shape(v), rest))
    decreases v, 1
  {
    if v.Array? {
      ParseSerializedList(v.elements, ']', rest);
      DropOpener("[", Join(", ", Literals(v.elements)), "]", rest);
    } else {
      ParseSerializedList(v.values, ')', rest);
      DropOpener("(", Join(", ", Literals(v.values)), ")", rest);
    }
  }

  lemma DropOpener(opener: string, body: string, closer: string, rest: string)
    requires |opener| == 1
    ensures |opener + body + closer + rest| > 0
    ensures (opener + body + closer + rest)[0] == opener[0]
    ensures (opener + body + closer + rest)[1..] == body + closer + rest
  {
  }

  /** Round trip for a bracketed list of literals, possibly empty. */
  lemma {:induction false} ParseSerializedList(vs: seq<SqlValue>, close: char, rest: string)
    requires forall i :: 0 <= i < |vs| ==> WellFormed(vs[i])
    requires close == ']' || close == ')'
    ensures ParseList(Join(", ", Literals(vs)) + [close] + rest, close) == Some((Shapes(vs), rest))
    decreases vs, 1
  {
    var s := Join(", ", Literals(vs)) + [close] + rest;
    if |vs| == 0 {
      assert s == [close] + rest;
      assert Shapes(vs) == [];
    } else {
      ParseSerializedItems(vs, close, rest);
      SerializeStartsLiteral(vs[0]);
      JoinStartsWithFirst(", ", Literals(vs));
      assert s[0] == Serialize(vs[0])[0];
    }
  }

  lemma {:induction false} JoinStartsWithFirst(sep: string, parts: seq<string>)
    requires |parts| > 0
    ensures |Join(sep, parts)| >= |parts[0]|
    ensures Join(sep, parts)[..|parts[0]|] == parts[0]
  {
  }

  /** Round trip for one or more `", "`-separated literals and their closer. */
  lemma {:induction false} ParseSerializedItems(vs: seq<SqlValue>, close: char, rest: string)
    requires |vs| > 0
    requires forall i :: 0 <= i < |vs| ==> WellFormed(vs[i])
    requires close == ']' || close == ')'
    ensures ParseItems(Join(", ", Literals(vs)) + [close] + rest, close) == Some((Shapes(vs), rest))
    decreases vs, 0
  {
    var lits := Literals(vs);
    var s := Join(", ", lits) + [close] + rest;
    ShapesCons(vs);
    LiteralsCons(vs);
    if |vs| == 1 {
      var after := [close] + rest;
      assert Shapes(vs[1..]) == [];
      assert Shapes(vs) == [Shape(vs[0])];
      ParseSerialized(vs[0], after);
      assert s == Serialize(vs[0]) + after;
      ParseItemsLast(s, close, Shape(vs[0]), rest);
    } else {
      var more := Join(", ", Literals(vs[1..])) + [close] + rest;
      ParseSerialized(vs[0], ", " + more);
      JoinConsAppend(", ", lits, [close], rest);
      ParseSerializedItems(vs[1..], close, rest);
      ParseItemsNext(s, close, Shape(vs[0]), more);
    }
  }

  lemma ShapesCons(vs: seq<SqlValue>)
    requires |vs| > 0
    ensures Shapes(vs) == [Shape(vs[0])] + Shapes(vs[1..])
  {
  }

  lemma LiteralsCons(vs: seq<SqlValue>)
    requires |vs| > 0
    ensures Literals(vs)[0] == Serialize(vs[0])
    ensures Literals(vs)[1..] == Literals(vs[1..])
  {
  }

  /** The last item: the closer follows it directly. */
  lemma ParseItemsLast(s: string, close: char, item: Literal, rest: string)
    requires ParseValue(s) == Some((item, [close] + rest))
    ensures ParseItems(s, close) == Some(([item], rest))
  {
    assert ([close] + rest)[1..] == rest;
  }

  /** An inner item: `", "` and further items follow it. */
  lemma ParseItemsNext(s: string, close: char, item: Literal, more: string)
    requires close == ']' || close == ')'
    requires ParseValue(s) == Some((item, ", " + more))
    requires ParseItems(more, close).Some?
    ensures ParseItems(s, close)
         == Some(([item] + ParseItems(more, close).value.0, ParseItems(more, close).value.1))
  {
    assert (", " + more)[2..] == more;
  }

  lemma JoinConsAppend(sep: string, parts: seq<string>, closer: string, rest: string)
    requires |parts| > 1
    ensures Join(sep, parts) + closer + rest == parts[0] + (sep + (Join(sep, parts[1..]) + closer + rest))
  {
  }

  /** The serializer's output reads back, as a whole, to the value's shape. */
  lemma ParseLiteralSerialize(v: SqlValue)
    requires WellFormed(v)
    ensures ParseLiteral(Serialize(v)) == Some(Shape(v))
  {
    ParseSerialized(v, "");
    assert Serialize(v) + "" == Serialize(v);
  }

  /** Hence two well-formed values with different shapes never share a literal. */
  lemma SerializeDistinguishesShapes(v: SqlValue, w: SqlValue)
    requires WellFormed(v) && WellFormed(w)
    requires Shape(v) != Shape(w)
    ensures Serialize(v) != Serialize(w)
  {
    ParseLiteralSerialize(v);
    ParseLiteralSerialize(w);
  }
}

=== FILE: schema.dfy ===
/**
 The DDL document built from a dataset's table listing (`get_bigquery_schema`).
 The catalog listing and each table's fetched metadata and sample-row outcome
 are inputs; the document is the concatenation, in listing order, of one block
 per view, native table and Iceberg external table.
 */
module Schema {
  import opened Wrappers
  import opened Strings
  import opened Escaping
  import opened Serializer
  import opened LiteralParser

  datatype Mode = Nullable | Required | Repeated

  datatype Field = Field(name: string, fieldType: string, mode: Mode, description: Option<string>)

  /** The three kinds of table the builder recognises, and any other. */
  datatype TableKind = Table | View | External | OtherKind(tableType: string)

  /** The builder's dispatch on `table_type`: the strings it tests for, in the
      order it tests them, and every other string. */
  function KindOf(tableType: string): (k: TableKind)
    ensures k == View <==> tableType == "VIEW"
    ensures k == External <==> tableType == "EXTERNAL"
    ensures k == Table <==> tableType == "TABLE"
    ensures k.OtherKind? ==> k.tableType == tableType
  {
    if tableType == "VIEW" then View
    else if tableType == "EXTERNAL" then External
    else if tableType == "TABLE" then Table
    else OtherKind(tableType)
  }

  datatype ExternalConfig = ExternalConfig(sourceFormat: string, connectionId: string, sourceUris: seq<string>)

  /** One sample row: its values in column order. */
  type Row = seq<SqlValue>

  /** A listed table with its fetched metadata. `sample` is the outcome of the
      `SELECT * ... LIMIT 5` query, `None` when it failed; only native tables
      consult it. */
  datatype TableDesc = TableDesc(
    name: string,
    tableType: string,
    schema: seq<Field>,
    viewQuery: string,
    external: Option<ExternalConfig>,
    sample: Option<seq<Row>>)
  {
    /** The kind its `table_type` names. */
    function Kind(): TableKind
    {
      KindOf(tableType)
    }
  }

  /** `str(table_ref)`. */
  function QualifiedName(project: string, dataset: string, table: string): string
  {
    project + "." + dataset + "." + table
  }

  /** `table_ref.path`. */
  function TablePath(project: string, dataset: string, table: string): string
  {
    "/projects/" + project + "/datasets/" + dataset + "/tables/" + table
  }

  function Backquoted(name: string): string
  {
    "`" + name + "`"
  }

  function ColumnType(f: Field): string
  {
    if f.mode == Repeated then "ARRAY<" + f.fieldType + ">" else f.fieldType
  }

  function ColumnDef(f: Field): string
  {
    "  " + Backquoted(f.name) + " " + ColumnType(f)
  }

  /** A description counts only when present and non-empty (Python truthiness). */
  predicate HasDescription(f: Field)
  {
    f.description.Some? && |f.description.value| > 0
  }

  /** A native table's column definition, with its description inline. */
  function TableColumnDef(f: Field): string
  {
    ColumnDef(f)
    + (if HasDescription(f) then " OPTIONS(description='" + QuoteDescription(f.description.value) + "')" else "")
  }

  function ColumnDefs(schema: seq<Field>): (r: seq<string>)
    ensures |r| == |schema|
  {
    seq(|schema|, i requires 0 <= i < |schema| => ColumnDef(schema[i]))
  }

  function TableColumnDefs(schema: seq<Field>): (r: seq<string>)
    ensures |r| == |schema|
  {
    seq(|schema|, i requires 0 <= i < |schema| => TableColumnDef(schema[i]))
  }

  function QuotedUris(uris: seq<string>): (r: seq<string>)
    ensures |r| == |uris|
  {
    seq(|uris|, i requires 0 <= i < |uris| => "'" + uris[i] + "'")
  }

  function ViewBlock(ref: string, query: string): string
  {
    "CREATE OR REPLACE VIEW " + Backquoted(ref) + " AS\n" + query + ";\n\n"
  }

  function ConnectionClause(connection: string): string
  {
    "WITH CONNECTION " + Backquoted(connection)
  }

  function OptionsClause(uris: seq<string>): string
  {
    "OPTIONS (\n  uris = [" + Join(",\n    ", QuotedUris(uris)) + "],\n  format = 'ICEBERG'\n)"
  }

  function IcebergBlock(ref: string, schema: seq<Field>, config: ExternalConfig): string
  {
    "CREATE EXTERNAL TABLE " + Backquoted(ref) + " (\n" + Join(",\n", ColumnDefs(schema)) + "\n)\n"
    + ConnectionClause(config.connectionId) + "\n" + OptionsClause(config.sourceUris) + ";\n\n"
  }

  function CreateTable(ref: string, schema: seq<Field>): string
  {
    "CREATE OR REPLACE TABLE " + Backquoted(ref) + " (\n" + Join(",\n", TableColumnDefs(schema)) + "\n);\n\n"
  }

  function InsertPrefix(ref: string): string
  {
    "INSERT INTO " + Backquoted(ref) + " VALUES ("
  }

  /** The value list of an INSERT and what closes the statement. */
  function ValuesList(row: Row): string
  {
    Join(", ", Literals(row)) + ")" + ";\n\n"
  }

  function InsertStatement(ref: string, row: Row): string
  {
    InsertPrefix(ref) + ValuesList(row)
  }

  /** Opens a SQL line comment. */
  const CommentMarker := "--"

  function SampleHeader(ref: string): string
  {
    CommentMarker + " Example values for table " + Backquoted(ref) + ":\n"
  }

  function SampleNote(path: string): string
  {
    CommentMarker + " NOTE: Could not retrieve sample rows for table " + path + ".\n\n"
  }

  /** What follows a native table's CREATE statement, statement by statement. */
  function SampleStatements(ref: string, path: string, sample: Option<seq<Row>>): seq<string>
  {
    match sample
    case None => [SampleNote(path)]
    case Some(rows) =>
      if |rows| == 0 then []
      else [SampleHeader(ref)] + seq(|rows|, i requires 0 <= i < |rows| => InsertStatement(ref, rows[i]))
  }

  function TableBlock(ref: string, path: string, schema: seq<Field>, sample: Option<seq<Row>>): string
  {
    CreateTable(ref, schema) + Concat(SampleStatements(ref, path, sample))
  }

  predicate IsIceberg(t: TableDesc)
  {
    t.Kind() == External && t.external.Some? && t.external.value.sourceFormat == "ICEBERG"
  }

  /** The tables that contribute a block to the document. */
  predicate Emits(t: TableDesc)
  {
    t.Kind() == View || t.Kind() == Table || IsIceberg(t)
  }

  /** The block one listed table contributes. */
  function Block(project: string, dataset: string, t: TableDesc): string
  {
    var ref := QualifiedName(project, dataset, t.name);
    match t.Kind()
    case View => ViewBlock(ref, t.viewQuery)
    case External =>
      if t.external.Some? && t.external.value.sourceFormat == "ICEBERG"
      then IcebergBlock(ref, t.schema, t.external.value)
      else ""
    case Table => TableBlock(ref, TablePath(project, dataset, t.name), t.schema, t.sample)
    case OtherKind(_) => ""
  }

  /** Each listed table's block, in listing order. */
  function Blocks(project: string, dataset: string, tables: seq<TableDesc>): (r: seq<string>)
    ensures |r| == |tables|
  {
    seq(|tables|, i requires 0 <= i < |tables| => Block(project, dataset, tables[i]))
  }

  /** Reference definition of the document: the blocks in listing order. */
  function Document(project: string, dataset: string, tables: seq<TableDesc>): string
  {
    Concat(Blocks(project, dataset, tables))
  }

  /** The listed tables that contribute a block, in listing order. */
  function Emitting(tables: seq<TableDesc>): (r: seq<TableDesc>)
    ensures |r| <= |tables|
    ensures forall i :: 0 <= i < |r| ==> Emits(r[i])
  {
    if |tables| == 0 then []
    else if Emits(tables[0]) then [tables[0]] + Emitting(tables[1..])
    else Emitting(tables[1..])
  }

  /** The document is the first table's block followed by the rest's document. */
  lemma DocumentCons(project: string, dataset: string, tables: seq<TableDesc>)
    requires |tables| > 0
    ensures Document(project, dataset, tables)
         == Block(project, dataset, tables[0]) + Document(project, dataset, tables[1..])
  {
    var blocks := Blocks(project, dataset, tables);
    assert blocks[1..] == Blocks(project, dataset, tables[1..]);
  }

  /** The builder as the source writes it: one pass over the listing,
      appending each table's block to the text built so far. */
  method BuildSchemaDocument(project: string, dataset: string, tables: seq<TableDesc>) returns (ddl: string)
    ensures ddl == Document(project, dataset, tables)
  {
    ddl := "";
    var i := 0;
    while i < |tables|
      invariant 0 <= i <= |tables|
      invariant ddl == Concat(Blocks(project, dataset, tables)[..i])
    {
      var t := tables[i];
      var ref := QualifiedName(project, dataset, t.name);
      var block := "";
      if t.tableType == "VIEW" {
        block := ViewBlock(ref, t.viewQuery);
      } else if t.tableType == "EXTERNAL" {
        if t.external.Some? && t.external.value.sourceFormat == "ICEBERG" {
          block := IcebergBlock(ref, t.schema, t.external.value);
        }
      } else if t.tableType == "TABLE" {
        block := CreateTable(ref, t.schema);
        block := block + Concat(SampleStatements(ref, TablePath(project, dataset, t.name), t.sample));
      }
      assert block == Blocks(project, dataset, tables)[i];
      ConcatSnoc(Blocks(project, dataset, tables), i);
      ddl := ddl + block;
      i := i + 1;
    }
    assert Blocks(project, dataset, tables)[..|tables|] == Blocks(project, dataset, tables);
  }

  /** The sample rows decide what follows a native table's CREATE statement:
      a failed fetch gives the note alone, no rows give nothing, and k rows
      give the example header followed by exactly k INSERT statements whose
      value lists read back, in column order, to the rows' values. */
  lemma SampleOutcome(ref: string, path: string, sample: Option<seq<Row>>)
    ensures sample.None? ==> SampleStatements(ref, path, sample) == [SampleNote(path)]
    ensures sample.Some? && |sample.value| == 0 ==> SampleStatements(ref, path, sample) == []
    ensures sample.Some? && |sample.value| > 0 ==>
      var st := SampleStatements(ref, path, sample);
      var rows := sample.value;
      && |st| == |rows| + 1
      && st[0] == SampleHeader(ref)
      && forall i :: 0 <= i < |rows| ==>
           && StartsWith(st[i + 1], InsertPrefix(ref))
           && ((forall j :: 0 <= j < |rows[i]| ==> WellFormed(rows[i][j])) ==>
                 ParseList(st[i + 1][|InsertPrefix(ref)|..], ')') == Some((Shapes(rows[i]), ";\n\n")))
  {
    if sample.Some? && |sample.value| > 0 {
      var st := SampleStatements(ref, path, sample);
      var rows := sample.value;
      forall i | 0 <= i < |rows|
        ensures StartsWith(st[i + 1], InsertPrefix(ref))
        ensures (forall j :: 0 <= j < |rows[i]| ==> WellFormed(rows[i][j])) ==>
                 ParseList(st[i + 1][|InsertPrefix(ref)|..], ')') == Some((Shapes(rows[i]), ";\n\n"))
      {
        assert st[i + 1] == InsertPrefix(ref) + ValuesList(rows[i]);
        assert st[i + 1][|InsertPrefix(ref)|..] == ValuesList(rows[i]);
        if forall j :: 0 <= j < |rows[i]| ==> WellFormed(rows[i][j]) {
          ParseSerializedList(rows[i], ')', ";\n\n");
        }
      }
    }
  }

  /** A failed sample fetch leaves a SQL comment and no INSERT statement
      behind the CREATE. */
  lemma FailedFetchHasNoInsert(ref: string, path: string)
    ensures forall st :: st in SampleStatements(ref, path, None) ==>
      StartsWith(st, CommentMarker) && !StartsWith(st, "INSERT INTO")
  {
    var note := SampleNote(path);
    var rest := " NOTE: Could not retrieve sample rows for table ";
    assert note == CommentMarker + rest + path + ".\n\n";
    assert note[0] == (CommentMarker + rest)[0] == '-';
    StartsWithSelf(CommentMarker);
    StartsWithAppend(CommentMarker, CommentMarker, rest);
    StartsWithAppend(CommentMarker + rest, CommentMarker, path);
    StartsWithAppend(CommentMarker + rest + path, CommentMarker, ".\n\n");
  }

  /** A table contributes text exactly when it is a view, a native table or an
      Iceberg external table, and that text opens with the CREATE statement
      for its kind. */
  lemma BlockShape(project: string, dataset: string, t: TableDesc)
    ensures Block(project, dataset, t) == "" <==> !Emits(t)
    ensures t.Kind() == View ==>
      StartsWith(Block(project, dataset, t), "CREATE OR REPLACE VIEW " + Backquoted(QualifiedName(project, dataset, t.name)))
    ensures t.Kind() == Table ==>
      StartsWith(Block(project, dataset, t), "CREATE OR REPLACE TABLE " + Backquoted(QualifiedName(project, dataset, t.name)))
    ensures IsIceberg(t) ==>
      StartsWith(Block(project, dataset, t), "CREATE EXTERNAL TABLE " + Backquoted(QualifiedName(project, dataset, t.name)))
  {
  }

  /** Tables that contribute nothing can be dropped from the listing without
      changing the document. */
  lemma {:induction false} DocumentOfEmitting(project: string, dataset: string, tables: seq<TableDesc>)
    ensures Document(project, dataset, tables) == Document(project, dataset, Emitting(tables))
    decreases |tables|
  {
    if |tables| > 0 {
      DocumentOfEmitting(project, dataset, tables[1..]);
      DocumentCons(project, dataset, tables);
      BlockShape(project, dataset, tables[0]);
      if Emits(tables[0]) {
        var rest := Emitting(tables[1..]);
        assert ([tables[0]] + rest)[1..] == rest;
        DocumentCons(project, dataset, [tables[0]] + rest);
      }
    }
  }

  /** The document is empty exactly when no listed table contributes. */
  lemma {:induction false} DocumentEmptyIff(project: string, dataset: string, tables: seq<TableDesc>)
    ensures Document(project, dataset, tables) == "" <==> Emitting(tables) == []
    decreases |tables|
  {
    if |tables| > 0 {
      DocumentEmptyIff(project, dataset, tables[1..]);
      DocumentCons(project, dataset, tables);
      BlockShape(project, dataset, tables[0]);
    }
  }

  /** A column description is rendered only when non-empty, and the rendered
      description reads back to the original. */
  lemma DescribedColumn(f: Field)
    ensures !HasDescription(f) ==> TableColumnDef(f) == ColumnDef(f)
    ensures HasDescription(f) ==>
      exists q ::
        && TableColumnDef(f) == ColumnDef(f) + (" OPTIONS(description='" + q + "')")
        && Undouble(q, DescriptionSpecials) == Some(f.description.value)
  {
    if HasDescription(f) {
      var q := QuoteDescription(f.description.value);
      QuoteDescriptionRoundTrip(f.description.value);
      assert TableColumnDef(f) == ColumnDef(f) + (" OPTIONS(description='" + q + "')");
    }
  }

  /** A column's type is rendered `ARRAY<T>` exactly when the column is
      repeated, and as its plain type otherwise. */
  lemma RepeatedColumnType(f: Field)
    ensures ColumnType(f) == "ARRAY<" + f.fieldType + ">" <==> f.mode == Repeated
    ensures f.mode != Repeated ==> ColumnType(f) == f.fieldType
  {
    if f.mode != Repeated {
      assert |ColumnType(f)| < |"ARRAY<" + f.fieldType + ">"|;
    }
  }

  /** A native table's block lists the definition of every schema field. */
  lemma TableColumnsListed(ref: string, path: string, schema: seq<Field>, sample: Option<seq<Row>>, i: int)
    requires 0 <= i < |schema|
    ensures Contains(TableBlock(ref, path, schema, sample), TableColumnDef(schema[i]))
  {
    var head := "CREATE OR REPLACE TABLE " + Backquoted(ref) + " (\n";
    var cols := Join(",\n", TableColumnDefs(schema));
    JoinContainsPart(",\n", TableColumnDefs(schema), i);
    ContainsRight(head, cols, TableColumnDef(schema[i]));
    ContainsLeft(head + cols, "\n);\n\n", TableColumnDef(schema[i]));
    ContainsLeft(CreateTable(ref, schema), Concat(SampleStatements(ref, path, sample)), TableColumnDef(schema[i]));
  }

  /** An Iceberg table's block lists every schema field, names its connection
      and lists every source URI. */
  lemma IcebergBlockContents(ref: string, schema: seq<Field>, config: ExternalConfig)
    ensures forall i :: 0 <= i < |schema| ==> Contains(IcebergBlock(ref, schema, config), ColumnDef(schema[i]))
    ensures Contains(IcebergBlock(ref, schema, config), ConnectionClause(config.connectionId))
    ensures forall i :: 0 <= i < |config.sourceUris| ==>
      Contains(IcebergBlock(ref, schema, config), "'" + config.sourceUris[i] + "'")
  {
    var head := "CREATE EXTERNAL TABLE " + Backquoted(ref) + " (\n";
    var cols := Join(",\n", ColumnDefs(schema));
    var conn := ConnectionClause(config.connectionId);
    var opts := OptionsClause(config.sourceUris);
    var block := IcebergBlock(ref, schema, config);
    forall i | 0 <= i < |schema|
      ensures Contains(block, ColumnDef(schema[i]))
    {
      var p := ColumnDef(schema[i]);
      JoinContainsPart(",\n", ColumnDefs(schema), i);
      ContainsRight(head, cols, p);
      ContainsLeft(head + cols, "\n)\n", p);
      ContainsLeft(head + cols + "\n)\n", conn, p);
      ContainsLeft(head + cols + "\n)\n" + conn, "\n", p);
      ContainsLeft(head + cols + "\n)\n" + conn + "\n", opts, p);
      ContainsLeft(head + cols + "\n)\n" + conn + "\n" + opts, ";\n\n", p);
    }
    ContainsSelf(conn);
    ContainsRight(head + cols + "\n)\n", conn, conn);
    ContainsLeft(head + cols + "\n)\n" + conn, "\n", conn);
    ContainsLeft(head + cols + "\n)\n" + conn + "\n", opts, conn);
    ContainsLeft(head + cols + "\n)\n" + conn + "\n" + opts, ";\n\n", conn);
    forall i | 0 <= i < |config.sourceUris|
      ensures Contains(block, "'" + config.sourceUris[i] + "'")
    {
      var p := "'" + config.sourceUris[i] + "'";
      var uris := Join(",\n    ", QuotedUris(config.sourceUris));
      JoinContainsPart(",\n    ", QuotedUris(config.sourceUris), i);
      ContainsRight("OPTIONS (\n  uris = [", uris, p);
      ContainsLeft("OPTIONS (\n  uris = [" + uris, "],\n  format = 'ICEBERG'\n)", p);
      ContainsRight(head + cols + "\n)\n" + conn + "\n", opts, p);
      ContainsLeft(head + cols + "\n)\n" + conn + "\n" + opts, ";\n\n", p);
    }
  }

  /** A native table with one repeated INT64 column whose sample fetch failed:
      its block defines the column as `ARRAY<INT64>` and is its CREATE
      statement followed by the note alone. */
  lemma RepeatedColumnFetchFailedExample()
    ensures
      var f := Field("scores", "INT64", Repeated, None);
      var t := TableDesc("t", "TABLE", [f], "", None, None);
      && ColumnType(f) == "ARRAY<INT64>"
      && Contains(Block("p", "d", t), ColumnDef(f))
      && Block("p", "d", t) == CreateTable(QualifiedName("p", "d", "t"), [f]) + SampleNote(TablePath("p", "d", "t"))
  {
    var f := Field("scores", "INT64", Repeated, None);
    var path := TablePath("p", "d", "t");
    assert TableColumnDef(f) == ColumnDef(f);
    TableColumnsListed(QualifiedName("p", "d", "t"), path, [f], None, 0);
    assert Concat([SampleNote(path)]) == SampleNote(path) + Concat([]);
  }
}

=== FILE: serializer.dfy ===
/**
 The SQL literal serializer used to embed sample rows in generated DDL
 (`_serialize_value_for_sql`). Its input is the closed set of value kinds a
 sample row can hold; the function is total.
 */
module Serializer {
  import opened Strings
  import opened Escaping

  /** A value of a sample row, classified the way the serializer's checks
      classify it, in their priority order. */
  datatype SqlValue =
    | Null                                     // anything `pd.isna` reports missing
    | Text(text: string)                       // `str`
    | Bytes(decoded: string)                   // `bytes`, after permissive UTF-8 decoding
    | Temporal(repr: string)                   // `str()` of a date, datetime or Timestamp
    | Array(elements: seq<SqlValue>)           // list or numpy array
    | Struct(keys: seq<string>, values: seq<SqlValue>)  // dict, in insertion order
    | Scalar(repr: string)                     // `str()` of any other value

  /** The SQL literal text of a value. */
  function Serialize(v: SqlValue): string
  {
    match v
    case Null => "NULL"
    case Text(s) => "'" + EscapeText(s) + "'"
    case Bytes(s) => "b'" + EscapeText(s) + "'"
    case Temporal(t) => "'" + t + "'"
    case Array(es) => "[" + Join(", ", Literals(es)) + "]"
    case Struct(_, vs) => "(" + Join(", ", Literals(vs)) + ")"
    case Scalar(t) => t
  }

  /** The literals of a sequence of values, in order. */
  function Literals(vs: seq<SqlValue>): (r: seq<string>)
    ensures |r| == |vs|
  {
    seq(|vs|, i requires 0 <= i < |vs| => Serialize(vs[i]))
  }
}

=== FILE: strings.dfy ===
/**
 String operations of the Python runtime that the modelled code relies on:
 substring search (`p in s`), `str.replace`, ASCII lower-casing, `str.join`,
 concatenation of a list of pieces and `str.strip()`.
 */
module Strings {

  /** `p` occurs in `s` starting at index `i`. */
  predicate OccursAt(s: string, p: string, i: int)
  {
    0 <= i && i + |p| <= |s| && s[i..i + |p|] == p
  }

  /** Python's `p in s`. */
  predicate Contains(s: string, p: string)
  {
    exists i :: 0 <= i <= |s| - |p| && OccursAt(s, p, i)
  }

  lemma ContainsAt(s: string, p: string, i: int)
    requires OccursAt(s, p, i)
    ensures Contains(s, p)
  {
  }

  /** An occurrence in a piece is an occurrence in any text that extends it. */
  lemma ContainsLeft(a: string, b: string, p: string)
    requires Contains(a, p)
    ensures Contains(a + b, p)
  {
    var i :| 0 <= i <= |a| - |p| && OccursAt(a, p, i);
    assert (a + b)[i..i + |p|] == a[i..i + |p|];
    ContainsAt(a + b, p, i);
  }

  lemma ContainsRight(a: string, b: string, p: string)
    requires Contains(b, p)
    ensures Contains(a + b, p)
  {
    var i :| 0 <= i <= |b| - |p| && OccursAt(b, p, i);
    assert (a + b)[|a| + i..|a| + i + |p|] == b[i..i + |p|];
    ContainsAt(a + b, p, |a| + i);
  }

  lemma ContainsSelf(p: string)
    ensures Contains(p, p)
  {
    ContainsAt(p, p, 0);
  }

  predicate StartsWith(s: string, prefix: string)
  {
    |s| >= |prefix| && s[..|prefix|] == prefix
  }

  lemma StartsWithSelf(s: string)
    ensures StartsWith(s, s)
  {
  }

  /** A prefix stays a prefix when text is appended. */
  lemma StartsWithAppend(s: string, prefix: string, more: string)
    requires StartsWith(s, prefix)
    ensures StartsWith(s + more, prefix)
  {
    assert (s + more)[..|prefix|] == s[..|prefix|];
  }

  /** A slice of a string in which `p` does not occur does not contain `p` either. */
  lemma NotContainsSlice(s: string, p: string, i: int, j: int)
    requires 0 <= i <= j <= |s|
    requires !Contains(s, p)
    ensures !Contains(s[i..j], p)
  {
    if Contains(s[i..j], p) {
      var k :| 0 <= k <= |s[i..j]| - |p| && OccursAt(s[i..j], p, k);
      assert k + |p| <= j - i;
      forall m | 0 <= m < |p|
        ensures s[i + k..i + k + |p|][m] == p[m]
      {
        assert s[i..j][k..k + |p|][m] == p[m];
      }
      assert s[i + k..i + k + |p|] == p;
      ContainsAt(s, p, i + k);
    }
  }

  /** Python's `s.replace(old, new)`: occurrences of `pat` are replaced scanning
      from the left, without overlap and without rescanning replaced text. */
  function ReplaceAll(s: string, pat: string, rep: string): string
    requires |pat| > 0
    decreases |s|
  {
    if |s| < |pat| then s
    else if s[..|pat|] == pat then rep + ReplaceAll(s[|pat|..], pat, rep)
    else [s[0]] + ReplaceAll(s[1..], pat, rep)
  }

  /** Replacing every occurrence of the single character `c` by `r`. */
  function ReplaceChar(s: string, c: char, r: string): string
  {
    if |s| == 0 then ""
    else (if s[0] == c then r else [s[0]]) + ReplaceChar(s[1..], c, r)
  }

  lemma {:induction false} ReplaceCharAppend(a: string, b: string, c: char, r: string)
    ensures ReplaceChar(a + b, c, r) == ReplaceChar(a, c, r) + ReplaceChar(b, c, r)
    decreases |a|
  {
    if |a| > 0 {
      assert (a + b)[1..] == a[1..] + b;
      ReplaceCharAppend(a[1..], b, c, r);
    } else {
      assert a + b == b;
    }
  }

  /** With a one-character pattern, `str.replace` is a character-wise map. */
  lemma {:induction false} ReplaceAllOneChar(s: string, pat: string, rep: string)
    requires |pat| == 1
    ensures ReplaceAll(s, pat, rep) == ReplaceChar(s, pat[0], rep)
    decreases |s|
  {
    if |s| > 0 {
      ReplaceAllOneChar(s[1..], pat, rep);
      if s[0] == pat[0] {
        assert s[..1] == pat;
      }
    }
  }

  /** `str.replace` returns its input when the pattern does not occur. */
  lemma {:induction false} ReplaceAllAbsent(s: string, pat: string, rep: string)
    requires |pat| > 0
    requires !Contains(s, pat)
    ensures ReplaceAll(s, pat, rep) == s
    decreases |s|
  {
    if |s| >= |pat| {
      if s[..|pat|] == pat {
        ContainsAt(s, pat, 0);
      }
      NotContainsSlice(s, pat, 1, |s|);
      assert s[1..|s|] == s[1..];
      ReplaceAllAbsent(s[1..], pat, rep);
    }
  }

  /** Text before the first possible start of the pattern is copied as is. */
  lemma {:induction false} ReplaceAllCopiesPrefix(a: string, t: string, pat: string, rep: string)
    requires |pat| > 0
    requires forall i :: 0 <= i < |a| ==> a[i] != pat[0]
    ensures ReplaceAll(a + t, pat, rep) == a + ReplaceAll(t, pat, rep)
    decreases |a|
  {
    if |a| == 0 {
      assert a + t == t;
    } else {
      var s := a + t;
      if |s| < |pat| {
        assert ReplaceAll(t, pat, rep) == t;
      } else {
        assert s[..|pat|] != pat by {
          assert s[..|pat|][0] == a[0];
        }
        assert ReplaceAll(s, pat, rep) == [a[0]] + ReplaceAll(s[1..], pat, rep);
        assert s[1..] == a[1..] + t;
        ReplaceAllCopiesPrefix(a[1..], t, pat, rep);
        assert [a[0]] + (a[1..] + ReplaceAll(t, pat, rep)) == a + ReplaceAll(t, pat, rep);
      }
    }
  }

  /** A replacement no longer than the pattern never lengthens the text. */
  lemma {:induction false} ReplaceAllShrinks(s: string, pat: string, rep: string)
    requires 0 < |pat| && |rep| <= |pat|
    ensures |ReplaceAll(s, pat, rep)| <= |s|
    decreases |s|
  {
    if |s| >= |pat| {
      if s[..|pat|] == pat {
        ReplaceAllShrinks(s[|pat|..], pat, rep);
      } else {
        ReplaceAllShrinks(s[1..], pat, rep);
      }
    }
  }

  /** The character `c` does not occur in `s`. */
  predicate Lacks(s: string, c: char)
  {
    forall i :: 0 <= i < |s| ==> s[i] != c
  }

  lemma LacksConcat(a: string, b: string, c: char)
    requires Lacks(a, c) && Lacks(b, c)
    ensures Lacks(a + b, c)
  {
    forall i | 0 <= i < |a + b|
      ensures (a + b)[i] != c
    {
      if i < |a| {
        assert (a + b)[i] == a[i];
      } else {
        assert (a + b)[i] == b[i - |a|];
      }
    }
  }

  /** A text in which the pattern's first character never occurs is left
      as it is. */
  lemma ReplaceAllLacking(s: string, pat: string, rep: string)
    requires |pat| > 0 && Lacks(s, pat[0])
    ensures ReplaceAll(s, pat, rep) == s
  {
    ReplaceAllCopiesPrefix(s, "", pat, rep);
    assert s + "" == s;
  }

  /** A pattern at the start is replaced and the rest is processed on. */
  lemma ReplaceAllAtStart(pat: string, t: string, rep: string)
    requires |pat| > 0
    ensures ReplaceAll(pat + t, pat, rep) == rep + ReplaceAll(t, pat, rep)
  {
    assert (pat + t)[..|pat|] == pat;
    assert (pat + t)[|pat|..] == t;
  }

  /** No character of `w` occurs in `pat`. */
  predicate SharesNoChar(w: string, pat: string)
  {
    forall k, m :: 0 <= k < |w| && 0 <= m < |pat| ==> w[k] != pat[m]
  }

  /** A text that shares no character with the pattern survives at the start. */
  lemma {:induction false} ReplaceAllKeepsPrefix(s: string, w: string, pat: string, rep: string)
    requires |pat| > 0 && SharesNoChar(w, pat)
    requires w <= s
    ensures w <= ReplaceAll(s, pat, rep)
    decreases |s|
  {
    if |w| > 0 && |s| >= |pat| {
      assert s[..|pat|] != pat by {
        assert s[..|pat|][0] == s[0] == w[0];
        assert w[0] != pat[0];
      }
      assert w[1..] <= s[1..];
      ReplaceAllKeepsPrefix(s[1..], w[1..], pat, rep);
      assert w == [s[0]] + w[1..];
    }
  }

  /** An occurrence of the pattern at the start ends before any occurrence of
      a text that shares no character with it. */
  lemma PatternEndsBefore(s: string, w: string, pat: string, i: int)
    requires |pat| > 0 && |w| > 0 && SharesNoChar(w, pat)
    requires |pat| <= |s| && s[..|pat|] == pat
    requires OccursAt(s, w, i)
    ensures i >= |pat|
  {
    assert s[i..i + |w|][0] == s[i];
    assert forall j :: 0 <= j < |pat| ==> s[..|pat|][j] == s[j];
  }

  /** `str.replace` keeps every occurrence of a text that shares no character
      with the pattern. */
  lemma {:induction false} ReplaceAllKeeps(s: string, w: string, pat: string, rep: string, i: int)
    requires |pat| > 0 && SharesNoChar(w, pat)
    requires OccursAt(s, w, i)
    ensures Contains(ReplaceAll(s, pat, rep), w)
    decreases |s|
  {
    var r := ReplaceAll(s, pat, rep);
    if i == 0 || |w| == 0 {
      assert s[i..i + |w|] == w;
      if |w| == 0 {
        assert r[0..0] == w;
        ContainsAt(r, w, 0);
      } else {
        assert w <= s;
        ReplaceAllKeepsPrefix(s, w, pat, rep);
        assert r[0..|w|] == w;
        ContainsAt(r, w, 0);
      }
    } else if |s| < |pat| {
      ContainsAt(s, w, i);
    } else if s[..|pat|] == pat {
      PatternEndsBefore(s, w, pat, i);
      var t := s[|pat|..];
      assert t[i - |pat|..i - |pat| + |w|] == s[i..i + |w|];
      ReplaceAllKeeps(t, w, pat, rep, i - |pat|);
      ContainsRight(rep, ReplaceAll(t, pat, rep), w);
    } else {
      var t := s[1..];
      assert t[i - 1..i - 1 + |w|] == s[i..i + |w|];
      ReplaceAllKeeps(t, w, pat, rep, i - 1);
      ContainsRight([s[0]], ReplaceAll(t, pat, rep), w);
    }
  }

  /** ASCII lower-casing of one character. */
  function LowerChar(c: char): char
  {
    if 'A' <= c <= 'Z' then (c as int - 'A' as int + 'a' as int) as char else c
  }

  /** `s.lower()`, restricted to the ASCII letters. */
  function Lower(s: string): (r: string)
    ensures |r| == |s|
    ensures forall i :: 0 <= i < |s| ==> r[i] == LowerChar(s[i])
  {
    seq(|s|, i requires 0 <= i < |s| => LowerChar(s[i]))
  }

  lemma LowerAppend(a: string, b: string)
    ensures Lower(a + b) == Lower(a) + Lower(b)
  {
  }

  /** Python's `sep.join(parts)`. */
  function Join(sep: string, parts: seq<string>): string
  {
    if |parts| == 0 then ""
    else if |parts| == 1 then parts[0]
    else parts[0] + sep + Join(sep, parts[1..])
  }

  /** Every part appears in the joined text. */
  lemma {:induction false} JoinContainsPart(sep: string, parts: seq<string>, i: int)
    requires 0 <= i < |parts|
    ensures Contains(Join(sep, parts), parts[i])
    decreases |parts|
  {
    if |parts| == 1 {
      ContainsSelf(parts[0]);
    } else if i == 0 {
      ContainsSelf(parts[0]);
      ContainsLeft(parts[0], sep, parts[0]);
      ContainsLeft(parts[0] + sep, Join(sep, parts[1..]), parts[0]);
    } else {
      JoinContainsPart(sep, parts[1..], i - 1);
      ContainsRight(parts[0] + sep, Join(sep, parts[1..]), parts[i]);
    }
  }

  /** `"".join(parts)`: the parts back to back. */
  function Concat(parts: seq<string>): string
  {
    if |parts| == 0 then "" else parts[0] + Concat(parts[1..])
  }

  lemma {:induction false} ConcatAppend(a: seq<string>, b: seq<string>)
    ensures Concat(a + b) == Concat(a) + Concat(b)
    decreases |a|
  {
    if |a| == 0 {
      assert a + b == b;
    } else {
      assert (a + b)[1..] == a[1..] + b;
      ConcatAppend(a[1..], b);
    }
  }

  /** Extending a prefix of the parts by the next part. */
  lemma ConcatSnoc(parts: seq<string>, i: int)
    requires 0 <= i < |parts|
    ensures Concat(parts[..i]) + parts[i] == Concat(parts[..i + 1])
  {
    assert parts[..i + 1] == parts[..i] + [parts[i]];
    ConcatAppend(parts[..i], [parts[i]]);
    assert Concat([parts[i]]) == parts[i] + Concat([]);
  }

  /** Python's `str.isspace()` on one character. */
  predicate IsSpace(c: char)
  {
    || c == ' ' || c == '\t' || c == '\n' || c == '\r'
    || c == '\U{0B}' || c == '\U{0C}'
    || '\U{1C}' <= c <= '\U{1F}'
    || c == '\U{85}' || c == '\U{A0}' || c == '\U{1680}'
    || '\U{2000}' <= c <= '\U{200A}'
    || c == '\U{2028}' || c == '\U{2029}' || c == '\U{202F}' || c == '\U{205F}'
    || c == '\U{3000}'
  }

  /** The end of the run of whitespace that starts at `i`. */
  function SpaceRunEnd(s: string, i: int): (e: int)
    requires 0 <= i <= |s|
    ensures i <= e <= |s|
    ensures forall k :: i <= k < e ==> IsSpace(s[k])
    ensures e < |s| ==> !IsSpace(s[e])
    decreases |s| - i
  {
    if i < |s| && IsSpace(s[i]) then SpaceRunEnd(s, i + 1) else i
  }

  /** The start of the run of whitespace that ends at `j`, not going below `lo`. */
  function SpaceRunStart(s: string, lo: int, j: int): (b: int)
    requires 0 <= lo <= j <= |s|
    ensures lo <= b <= j
    ensures forall k :: b <= k < j ==> IsSpace(s[k])
    ensures b > lo ==> !IsSpace(s[b - 1])
    decreases j
  {
    if j > lo && IsSpace(s[j - 1]) then SpaceRunStart(s, lo, j - 1) else j
  }

  /** Python's `s.strip()`: the slice left after dropping leading and trailing
      whitespace. */
  function Strip(s: string): (r: string)
    ensures exists i, j ::
      && 0 <= i <= j <= |s| && r == s[i..j]
      && (forall k :: 0 <= k < i ==> IsSpace(s[k]))
      && (forall k :: j <= k < |s| ==> IsSpace(s[k]))
    ensures |r| > 0 ==> !IsSpace(r[0]) && !IsSpace(r[|r| - 1])
  {
    var i := SpaceRunEnd(s, 0);
    var j := SpaceRunStart(s, i, |s|);
    s[i..j]
  }

  /** Stripping cannot create an occurrence of a pattern. */
  lemma StripNotContains(s: string, p: string)
    requires !Contains(s, p)
    ensures !Contains(Strip(s), p)
  {
    var i, j :| 0 <= i <= j <= |s| && Strip(s) == s[i..j];
    NotContainsSlice(s, p, i, j);
  }
}

=== FILE: validation.dfy ===
/**
 `run_bigquery_validation`: clean the query, refuse it when the gate finds a
 DML/DDL keyword, otherwise execute it and report either the first rows, with
 dates rendered as text, or a message. The query engine is a parameter: the
 outcome it gives for the query text it is sent.
 */
module Validation {
  import opened Wrappers
  import opened Strings
  import opened Gate
  import opened Cleanup
  import opened Dates

  /** A result cell's value: a `datetime.date`, a `datetime.datetime` (a
      subclass of `date`), text, or any other value, kept as it is. */
  datatype Value =
    | DateValue(date: CalendarDate)
    | DateTimeValue(date: CalendarDate, clock: string)
    | TextValue(text: string)
    | OtherValue(repr: string)

  datatype Cell = Cell(key: string, value: Value)

  /** One result row: `row.items()`, in column order. */
  type Row = seq<Cell>

  /** What executing a query gives: an error, or the result's schema (its
      column names) and all of its rows. */
  datatype ExecOutcome = Failed(message: string) | Executed(schema: seq<string>, rows: seq<Row>)

  /** The dictionary the tool returns. */
  datatype ValidationResult = ValidationResult(queryResult: Option<seq<Row>>, errorMessage: Option<string>)

  /** The returned dictionary and the query text sent for execution, if any. */
  datatype Validation = Validation(result: ValidationResult, executed: Option<string>)

  /** The two prefixes the tool's messages start with. */
  const InvalidPrefix := "Invalid SQL: "
  const ValidPrefix := "Valid SQL. "

  const DisallowedReason := "Contains disallowed DML/DDL operations."
  const DisallowedMessage := InvalidPrefix + DisallowedReason
  const NoResultsMessage := ValidPrefix + "Query executed successfully (no results)."

  function FailureMessage(message: string): string
  {
    InvalidPrefix + message
  }

  predicate IsDate(v: Value)
  {
    v.DateValue? || v.DateTimeValue?
  }

  /** `value.strftime("%Y-%m-%d")` for dates and datetimes; anything else as is. */
  function RenderValue(v: Value): (r: Value)
    ensures IsDate(v) ==> r.TextValue? && ParseDate(r.text) == Some(v.date)
    ensures !IsDate(v) ==> r == v
  {
    if IsDate(v) then
      ParseFormatDate(v.date);
      TextValue(FormatDate(v.date))
    else v
  }

  function RenderRow(row: Row): (r: Row)
    ensures |r| == |row|
    ensures forall j :: 0 <= j < |r| ==> r[j].key == row[j].key
  {
    seq(|row|, j requires 0 <= j < |row| => Cell(row[j].key, RenderValue(row[j].value)))
  }

  function Min(a: int, b: int): int
  {
    if a <= b then a else b
  }

  /** The returned rows: every row rendered, then the first `MAX_NUM_ROWS` kept. */
  function ShapeRows(rows: seq<Row>): (r: seq<Row>)
    ensures |r| == Min(|rows|, MaxNumRows)
  {
    seq(Min(|rows|, MaxNumRows), i requires 0 <= i < Min(|rows|, MaxNumRows) => RenderRow(rows[i]))
  }

  /** The outcome of one call, as a function of the query text and the engine. */
  function Validate(sql: string, engine: string -> ExecOutcome): Validation
  {
    var q := CleanupSql(sql);
    if Disallowed(q) then Validation(ValidationResult(None, Some(DisallowedMessage)), None)
    else
      var result :=
        match engine(q)
        case Failed(m) => ValidationResult(None, Some(FailureMessage(m)))
        case Executed(schema, rows) =>
          if |schema| > 0 then ValidationResult(Some(ShapeRows(rows)), None)
          else ValidationResult(None, Some(NoResultsMessage));
      Validation(result, Some(q))
  }

  /** The tool as the source runs it, with the gate as a left-to-right search. */
  method RunValidation(sql: string, engine: string -> ExecOutcome) returns (result: ValidationResult, executed: Option<string>)
    ensures Validation(result, executed) == Validate(sql, engine)
  {
    var q := CleanupSql(sql);
    var found := Search(q);
    if found.Some? {
      return ValidationResult(None, Some(DisallowedMessage)), None;
    }
    executed := Some(q);
    var outcome := engine(q);
    match outcome {
      case Failed(m) =>
        result := ValidationResult(None, Some(FailureMessage(m)));
      case Executed(schema, rows) =>
        if |schema| > 0 {
          result := ValidationResult(Some(ShapeRows(rows)), None);
        } else {
          result := ValidationResult(None, Some(NoResultsMessage));
        }
    }
  }

  /** Every path sets exactly one of the two entries. */
  lemma ExactlyOneChannel(sql: string, engine: string -> ExecOutcome)
    ensures Validate(sql, engine).result.queryResult.Some? != Validate(sql, engine).result.errorMessage.Some?
  {
  }

  /** Nothing is executed exactly when the gate fires on the cleaned query,
      and then the refusal is the only outcome. */
  lemma GateBlocksExecution(sql: string, engine: string -> ExecOutcome)
    ensures Validate(sql, engine).executed.None? <==> Disallowed(CleanupSql(sql))
    ensures Validate(sql, engine).executed.None? ==>
      Validate(sql, engine).result == ValidationResult(None, Some(DisallowedMessage))
  {
  }

  /** What reaches the engine is the cleaned query, free of the keywords and
      mentioning "limit". */
  lemma ExecutedQueryIsSafe(sql: string, engine: string -> ExecOutcome)
    ensures Validate(sql, engine).executed.Some? ==>
      var q := Validate(sql, engine).executed.value;
      && q == CleanupSql(sql)
      && !Disallowed(q)
      && Contains(Lower(q), "limit")
  {
  }

  /** An engine error comes back behind the `Invalid SQL: ` prefix, and a
      result without columns as the no-results message. */
  lemma EngineMessages(sql: string, engine: string -> ExecOutcome)
    requires !Disallowed(CleanupSql(sql))
    ensures engine(CleanupSql(sql)).Failed? ==>
      Validate(sql, engine).result == ValidationResult(None, Some(InvalidPrefix + engine(CleanupSql(sql)).message))
    ensures engine(CleanupSql(sql)).Executed? && |engine(CleanupSql(sql)).schema| == 0 ==>
      Validate(sql, engine).result == ValidationResult(None, Some(NoResultsMessage))
  {
  }

  /** Rows come back in order, at most `MAX_NUM_ROWS` of them, with the same
      keys in the same order; dates become the text that reads back to them
      and other values are unchanged. */
  lemma ReturnedRows(sql: string, engine: string -> ExecOutcome)
    requires !Disallowed(CleanupSql(sql))
    requires engine(CleanupSql(sql)).Executed? && |engine(CleanupSql(sql)).schema| > 0
    ensures
      var rows := engine(CleanupSql(sql)).rows;
      var out := Validate(sql, engine).result.queryResult;
      && out.Some?
      && |out.value| == Min(|rows|, MaxNumRows)
      && (forall i :: 0 <= i < |out.value| ==> |out.value[i]| == |rows[i]|)
      && forall i, j :: 0 <= i < |out.value| && 0 <= j < |rows[i]| ==>
           && out.value[i][j].key == rows[i][j].key
           && (IsDate(rows[i][j].value) ==>
                 out.value[i][j].value.TextValue?
                 && ParseDate(out.value[i][j].value.text) == Some(rows[i][j].value.date))
           && (!IsDate(rows[i][j].value) ==> out.value[i][j].value == rows[i][j].value)
  {
  }

  /** Shaping is idempotent: shaped rows hold no dates and at most
      `MAX_NUM_ROWS` rows, so shaping them again changes nothing. */
  lemma ShapeRowsIdempotent(rows: seq<Row>)
    ensures ShapeRows(ShapeRows(rows)) == ShapeRows(rows)
  {
    var once := ShapeRows(rows);
    forall i | 0 <= i < |once|
      ensures RenderRow(once[i]) == once[i]
    {
      forall j | 0 <= j < |once[i]|
        ensures RenderValue(once[i][j].value) == once[i][j].value
      {
      }
    }
  }

  /** The refusal reads like an engine error only for an engine whose own
      message is the refusal's reason; the no-results message never does. */
  lemma MessagesDistinguishable(m: string)
    ensures NoResultsMessage != FailureMessage(m)
    ensures DisallowedMessage == FailureMessage(m) <==> m == DisallowedReason
  {
    assert NoResultsMessage[0] == ValidPrefix[0];
    assert FailureMessage(m)[0] == InvalidPrefix[0];
    if DisallowedMessage == FailureMessage(m) {
      assert DisallowedMessage[|InvalidPrefix|..] == DisallowedReason;
      assert FailureMessage(m)[|InvalidPrefix|..] == m;
    }
  }

  /** A statement whose unescaped text already names a keyword as a word is
      refused whatever the limit step appends. */
  lemma KeywordRefused(sql: string, engine: string -> ExecOutcome)
    requires Disallowed(Unescape(sql))
    ensures Validate(sql, engine).executed == None
    ensures Validate(sql, engine).result == ValidationResult(None, Some(DisallowedMessage))
  {
    if CleanupSql(sql) != Unescape(sql) {
      assert LimitClause[0] == ' ';
      DisallowedExtends(Unescape(sql), LimitClause);
    }
  }

  lemma DropTableUnescaped()
    ensures Unescape("DROP TABLE x") == "DROP TABLE x"
  {
    var s := "DROP TABLE x";
    forall i | 0 <= i < |s|
      ensures s[i] != '\\'
    {
    }
    UnescapeWithoutBackslash(s);
  }

  lemma DropTableRefused(engine: string -> ExecOutcome)
    ensures Validate("DROP TABLE x", engine).executed == None
    ensures Validate("DROP TABLE x", engine).result == ValidationResult(None, Some(DisallowedMessage))
  {
    DropTableUnescaped();
    DropTableRejected();
    KeywordRefused("DROP TABLE x", engine);
  }
}

=== FILE: wrappers.dfy ===
/** The optional value used wherever the modelled code returns `None` or a value. */
module Wrappers {

  datatype Option<+T> = None | Some(value: T)
}
